=== FILE: README.md ===
# Chess match server core, modelled in Dafny

This project models the session core of a real-time chess backend. Users
invite each other through a lobby. An accepted invite creates a match with
randomly assigned colours. Both players join the match room, which starts a
pair of countdown clocks. Moves, resignations, draw offers and clock flag-falls
drive each match to its end. A finished game is written to the database, and
its PGN result tag decides the players' win/loss/draw tallies.

Every handler is a pure transition. It takes the match registry, the
profile table and the invite registry, and returns their new values plus the
socket emits it makes, as `Event` values addressed to the caller, a user
room, a match room or an object-named room. Modules follow the source
files:

- `Basics`: users, colours, moves, emits.
- `Engine`: the chess.js collaborator. It is an `Oracle` of total functions
  over an abstract position: turn, move application, game-over verdicts and
  move text. PGN headers are a list with JavaScript-object upsert semantics,
  rendered as `[Key "Value"]` lines before the move text.
- `DbAccess`: the result regex of `updatePlayerStats`, modelled as the
  leftmost-match search it is. Also the tally switch, with the profile table
  as a map from user id to `Tally`, and the step order of `saveGame`. Each
  INSERT's success is an input.
- `MatchHandlers`: `endGame`, `endGameOnFlag`, `endGameOnDraw`, the two
  interval callbacks, `startMatchClock` and the `joinMatchRoom`, `makeMove`,
  `resign`, `offerDraw` and `declineDraw` handlers.
- `InviteHandlers`: `generateNewMatch`, `shuffleTwo`, and the `invite` and
  `inviteAnswer` handlers.
- `Results`: end-to-end lemmas. Each way a match ends writes a result into
  the PGN that the regex later finds, and the tallies move accordingly.
- `Backend`: the whole server as one step function over actions, and the
  invariants that hold over every run.

Behaviour kept exactly as the code has it, where it differs from the design
the code was meant to follow:

- **Draw offers.** `offerDraw` sets `whiteOffer` in both branches of its
  colour test. Black's flag is therefore never raised, and a draw is never
  agreed. `Backend.DrawNeverAgreed` proves that no run from a state with
  black's flag down ever sends `acceptDraw`, whatever the usernames.
- **Declining an invite.** A decline notifies the room named
  `user:[object Object]`, because the inviter object is stringified
  (`ObjectRoom`). It then deletes the invite and falls through to the
  validity check, so the decliner is also told "Invalid invite id".
- **Declining an unknown id.** This reads `.inviter` of `undefined`. The
  handler throws before anything changes or is sent (`Crashed`).
- **Who answers an invite.** This is never checked. `InviteHandlers.AnswerIgnoresAnswerer` proves it.
- **The flag-fall threshold.** It is "remaining < 50 ms" after the
  decrement, not "at or below".
- **The Date header.** Its month is `getMonth()`, which counts from zero.
- **A `makeMove` with no move object.** It throws on `move.promotion`, and
  the catch answers "Invalid move" before any other check.
- **Comment text.** Resignation and flag-fall comments are written without
  a space (`Whiteresigns.`, `Blackwins on time.`), and then at once replaced
  by the result token. chess.js keys comments by position, and both are set
  on the same one, so these texts never reach the PGN.
  `MatchHandlers.Record` states that only the last comment is kept.

The result tag is found in the PGN only if no earlier text in it looks like
one. Registration does not restrict usernames, and a username holding `[`
imitates one: `Results.UsernameFakesResult` shows that a white username
spelling `[Result "1-0"]` makes the regex report `1-0` whatever result the
handlers write later. The end-to-end lemmas therefore
assume usernames without `[`, which the `Backend` invariant carries through
every run. The PGN is modelled as header lines in the order the keys were
first set, followed by the engine's move text. The chess.js version is not
pinned, and the lemmas do not depend on what the move text contains.

## Model

| member | source | states |
|---|---|---|
| `Engine.Upsert` | socket_handlers/match-handlers.js:36 | writing a header gives that key the new value and leaves every other key's value alone; a new key is appended at the end, and rewriting an existing key keeps the number of headers |
| `Engine.UpsertKeepsPlaces` | socket_handlers/match-handlers.js:36 | writing a header never moves an existing header: every key keeps its index, and the list never shrinks |
| `Engine.SetHeader` | socket_handlers/match-handlers.js:36 | after `header(key, value)` the key holds the value, every other key keeps its value, and the position and comments are untouched |
| `Engine.Pgn` | socket_handlers/match-handlers.js:8 | the PGN text is the rendered header block, then a newline, then the engine's move text; a game with headers starts with `[` |
| `Engine.SetComment` | socket_handlers/match-handlers.js:34-35 | a comment is attached to the current position only, adding no other position; a second comment there replaces the first |
| `Engine.InertHeadersRender` | db-access.js:38-39 | the PGN header block of headers whose keys do not start with `R` and hold no `[` contains no place where the result regex could start |
| `DbAccess.KnownTokensMatch` | db-access.js:45-62 | the three tokens of the tally switch are all accepted by the result regex's capture group |
| `DbAccess.ResultTokenHasNoQuote` | db-access.js:38 | a token the capture group accepts contains no double quote, so the capture ends at the first quote |
| `DbAccess.TagAt` | db-access.js:38 | a match at a position is the text `[Result "t"]` there, and its capture `t` is a token of the form `d/d-d/d` or `digits-digits` |
| `DbAccess.FirstTagIndex` | db-access.js:39 | the position returned holds a match and no earlier position from the start point does; no position at all when nothing matches |
| `DbAccess.ResultOf` | db-access.js:38-43 | the extracted result is a token the regex accepts and the PGN holds `[Result "t"]` for it; there is none exactly when no position of the PGN starts a match |
| `DbAccess.ResultOfLeftmost` | db-access.js:39 | a match with no match before it is the one `String.match` reports |
| `DbAccess.TagAtResultLine` | db-access.js:38 | the header line `[Result "t"]` for a token `t` the regex accepts is matched and captures exactly `t` |
| `DbAccess.BumpWhere` | db-access.js:48-58 | an UPDATE keyed by user id keeps the set of profiles; ids with no profile change nothing |
| `DbAccess.UpdatePlayerStats` | db-access.js:36-70 | it succeeds exactly when a result is found and is one of the three known tokens; on failure no profile changes |
| `DbAccess.StatsMatchCredit` | db-access.js:45-62 | the queries add to every profile exactly what the result is worth to that user: a win and a loss for a decisive result, a draw to each player for `1/2-1/2` |
| `DbAccess.StatsTouchOnlyPlayers` | db-access.js:45-62 | no profile other than the two players' is changed |
| `DbAccess.SaveGame` | db-access.js:73-109 | the save succeeds exactly when all three inserts affect one row and the tally update succeeds; a failed insert stops before the tallies are touched |
| `MatchHandlers.SaveMatch` | socket_handlers/match-handlers.js:7-12 | saving a match succeeds exactly when every insert succeeds and its PGN carries a result the tally switch knows; on failure no profile changes, and the set of profiles never changes |
| `MatchHandlers.EndGame` | socket_handlers/match-handlers.js:14-25 | an unknown match is ignored; otherwise the match leaves the registry whatever the save reports, and the profiles change only by the save |
| `MatchHandlers.LossFor` | socket_handlers/match-handlers.js:33 | the token for a loss is one the tally switch knows; it is `1-0` exactly when black is the loser and `0-1` exactly when white is |
| `MatchHandlers.Record` | socket_handlers/match-handlers.js:34-36 | the position and players are unchanged; the comments all land on the current position, so only the last one (the token) is kept there and no other comment changes; then the Result header holds the token |
| `MatchHandlers.EndGameOnFlag` | socket_handlers/match-handlers.js:28-39 | the flagged match leaves the registry and no other match changes; an unknown match is ignored |
| `MatchHandlers.EndGameOnDraw` | socket_handlers/match-handlers.js:41-49 | the drawn match leaves the registry and no other match changes; an unknown match is ignored |
| `MatchHandlers.Debit` | socket_handlers/match-handlers.js:52-57 | only the side to move loses time, exactly the rate |
| `MatchHandlers.UpdateActiveClock` | socket_handlers/match-handlers.js:51-66 | a tick on a live match takes the rate off the side to move; the match ends, with a zero broadcast for that side, exactly when the time left falls below 50 ms; other matches are untouched |
| `MatchHandlers.PollClocks` | socket_handlers/match-handlers.js:68-72 | a poll changes nothing and broadcasts the side to move with its remaining time |
| `MatchHandlers.StartMatchClock` | socket_handlers/match-handlers.js:74-91 | a missing or live match is left alone; otherwise only the liveness of that match changes |
| `MatchHandlers.StartMatchClockIdempotent` | socket_handlers/match-handlers.js:76-77 | starting a clock a second time does nothing and emits nothing |
| `MatchHandlers.IsParticipant` | socket_handlers/match-handlers.js:99-101 | a user takes part exactly when their id is white's or black's |
| `MatchHandlers.MovesForOpponent` | socket_handlers/match-handlers.js:160-161 | only a participant can be caught moving for the opponent, and in a match between two users a participant is caught exactly when their colour is not the one on move |
| `MatchHandlers.ColorOf` | socket_handlers/match-handlers.js:213 | a user is white exactly when their id is white's; a participant who is not white is black |
| `MatchHandlers.JoinMatchRoom` | socket_handlers/match-handlers.js:104-126 | errors are reported in the order: unknown match, not a participant; the match goes live exactly when a participant's join leaves more than one socket in a room of a match not yet live |
| `MatchHandlers.Normalize` | socket_handlers/match-handlers.js:138-139 | the squares are kept; an empty-string promotion becomes no promotion; any other move is unchanged |
| `MatchHandlers.GameOverResult` | socket_handlers/match-handlers.js:173-190 | checkmate is broadcast as `checkmate` and credits the side that moved; otherwise the first of draw, stalemate and threefold that holds is broadcast by that name and records `1/2-1/2`; a game-over with none of them is broadcast as `none` and records nothing |
| `MatchHandlers.MakeMove` | socket_handlers/match-handlers.js:133-198 | the checks run in order (no move, unknown match, ended, not a participant, not your turn, illegal), each rejection answers only the caller and changes nothing; an illegal move is answered with "Invalid move" only; a legal move that ends the game removes the match and is broadcast with its result; any other legal move stores the new position, clears both draw offers, leaves the profiles alone and is broadcast with `check` or `none` |
| `MatchHandlers.NotYourTurnExactly` | socket_handlers/match-handlers.js:158-164 | a participant of a match between two users is told "Not your turn" exactly when their colour is not the one on move |
| `MatchHandlers.Resign` | socket_handlers/match-handlers.js:200-222 | a participant's resignation ends the match whether it is live or not, and broadcasts the resigning colour |
| `MatchHandlers.OfferDraw` | socket_handlers/match-handlers.js:224-251 | with black's flag down, an offer from either colour raises white's flag and only notifies the opponent |
| `MatchHandlers.DeclineDraw` | socket_handlers/match-handlers.js:253-269 | for a participant, the registry changes only in that match's two draw flags, which are cleared, and the decline is broadcast |
| `InviteHandlers.InitialHeaders` | socket_handlers/invite-handlers.js:11-15 | a new game has exactly four headers, White, Black, Site and Date in that order, holding the two usernames, the site name and the date tag, and no Result |
| `InviteHandlers.DateTag` | socket_handlers/invite-handlers.js:15 | the Date header value consists of digits and dashes only |
| `InviteHandlers.GenerateNewMatch` | socket_handlers/invite-handlers.js:8-34 | a new match is not live, belongs to the given white and black players, has no draw offers, a full minute on each clock and a fresh game |
| `InviteHandlers.NewMatchHeaders` | socket_handlers/invite-handlers.js:11-15 | the new game names white and black, holds no result, and cannot fake a result tag when the usernames hold no `[` |
| `InviteHandlers.ShuffleTwo` | socket_handlers/invite-handlers.js:36-38 | the result is a permutation of the two values; the coin decides which one comes first |
| `InviteHandlers.HandleInvite` | socket_handlers/invite-handlers.js:52-81 | rejections come in the order: unknown user, self, offline, not in the invite room, and change nothing; otherwise the invite is stored under the current id, the id moves on, and the recipient is asked |
| `InviteHandlers.InviteAnswer` | socket_handlers/invite-handlers.js:83-106 | declining an unknown id crashes; declining a known one deletes it and reports both the decline and "Invalid invite id"; accepting a known id consumes it and creates a match under the next match id |
| `InviteHandlers.AcceptPairsBothUsers` | socket_handlers/invite-handlers.js:94-101 | the new match's players are exactly the inviter and the recipient, and the inviter is white exactly when the coin does not swap them |
| `InviteHandlers.SecondAnswerRejected` | socket_handlers/invite-handlers.js:89-92 | a second answer to an answered invite creates no match and changes no invite |
| `InviteHandlers.AnswerIgnoresAnswerer` | socket_handlers/invite-handlers.js:83-106 | the outcome of an answer is the same whoever sends it |
| `Results.NoResultOpenNoResult` | db-access.js:38-41 | a PGN in which `[Result "` occurs nowhere yields no result, so the stats update fails and no tally changes |
| `Results.NoTagStartNoResult` | db-access.js:38-39 | text in which no `[` is followed by `R` yields no result |
| `Results.ResultHeaderFound` | db-access.js:38-43 | after a result header is written into a game whose headers are inert, that token is what the regex extracts from the PGN, whatever the move text |
| `Results.UsernameFakesResult` | db-access.js:38-39 | a white username that spells a result line makes the regex report that result, whatever comes after it in the PGN |
| `Results.EndGameCredits` | socket_handlers/match-handlers.js:14-25 | ending a match whose PGN carries a known result, with all inserts succeeding, credits each profile with what the result is worth to that user |
| `Results.ResignCreditsOpponent` | socket_handlers/match-handlers.js:200-222 | a resignation credits the opponent with the win and the resigning player with the loss, when the usernames hold no `[` and every insert succeeds |
| `Results.DrawEndCreditsBoth` | socket_handlers/match-handlers.js:41-49 | ending a match on an agreed draw removes it and credits each player with a draw, when the usernames hold no `[` and every insert succeeds |
| `Results.FlagFallCreditsOpponent` | socket_handlers/match-handlers.js:28-39 | a flag-fall credits the side not on move with the win, when the usernames hold no `[` and every insert succeeds |
| `Results.CheckmateCreditsMover` | socket_handlers/match-handlers.js:173-176 | a mating move is broadcast as checkmate and credits its mover with the win, when the usernames hold no `[` and every insert succeeds |
| `Results.EngineDrawCreditsBoth` | socket_handlers/match-handlers.js:177-187 | a move the engine calls a draw, stalemate or threefold repetition credits both players with a draw, when the usernames hold no `[` and every insert succeeds |
| `Results.UnexplainedGameOverNotTallied` | socket_handlers/match-handlers.js:173-187 | a game-over with none of the four verdicts ends the match without a result header, and no profile changes |
| `Backend.Step` | socket.js:16-17 | match actions never touch the invite registry, sending an invite never touches the matches or profiles, and answering an invite never touches the profiles |
| `Backend.BootInvariant` | socket_handlers/invite-handlers.js:5-6 | the empty registries with both counters at 1 satisfy the server invariant |
| `Backend.StepInvariant` | socket_handlers/invite-handlers.js:76-102 | for an action whose invited users' names hold no `[`, every handler and interval firing keeps ids below their counters, black's draw flag down and headers inert, and never lowers the match counter |
| `Backend.RunInvariant` | socket_handlers/invite-handlers.js:76-102 | the server invariant holds after any sequence of actions whose invited users have usernames without `[` |
| `Backend.StepNeverAcceptsDraw` | socket_handlers/match-handlers.js:236-245 | with black's flag down, no step emits `acceptDraw` |
| `Backend.NoBlackOfferStep` | socket_handlers/match-handlers.js:236-240 | no step of any kind, whatever the usernames, raises black's draw flag once it is down |
| `Backend.DrawNeverAgreed` | socket_handlers/match-handlers.js:236-245 | no run from a state with black's flag down ever emits `acceptDraw`, whatever the usernames |
| `Backend.OfferNeverEndsMatch` | socket_handlers/match-handlers.js:236-250 | with black's flag down an offer never ends the match or touches the profiles; it leaves only white's flag raised |
| `Backend.GoneStaysGone` | socket_handlers/match-handlers.js:24 | once a match has left the registry, no later action brings its id back |
| `Backend.ClockStep` | socket_handlers/match-handlers.js:51-57 | one step changes a surviving match's clock only on a tick for that match, and only on the side to move |
| `Backend.ClockAccounts` | socket_handlers/match-handlers.js:84-86 | while a match is registered, each side's time is its earlier time minus 10 ms for every tick that fired while that side was on move |

## Left out

- The chess rules themselves belong to chess.js, an external library. They are the `Oracle` inputs: turn, move application, game-over verdicts and move text. The PGN is header lines in order, a blank line, then that move text.
- Two details of the `pgn()` text are left out. chess.js writes the blank line after the headers only when the game has moves, and it appends the result token to the move text. Neither adds or removes a `[Result "` in the text, so the result the regex finds is the same.
- Interleaving across `await` points is not modelled, and each handler is one atomic step. In the source, a match ended by `endGame` stays in the registry, not live, until the database answers. A `resign` arriving in that window could save the game a second time; the model does not show this. An `offerDraw` in that window only raises white's flag on a record about to be deleted.
- Interval scheduling is not modelled. `setInterval` and `clearInterval` become `ClockTick` and `ClockPoll` actions. A tick or poll for a missing or not-live match does nothing, because no interval exists then.
- Socket.io rooms are inputs. `joinInvite`, `leaveInvite` and `leaveMatchRoom` only change room membership. The model reads membership as inputs: `inRoom`, `roomSize`, and the recipient's sockets.
- The user lookups (`getUserByUsername` and its siblings) are inputs: `Option<User>`.
- SQL execution is not modelled. A profile UPDATE whose query throws part-way would leave the first tally changed; the model treats the one or two UPDATE queries of the matched case as succeeding once the token is known.
- The process-level effect of the decline crash is not modelled. The TypeError escapes an async handler as an unhandled rejection. No handler for it is installed, so on Node 15 and later the whole process exits; the Node version is not pinned. `Backend.Step` treats the crash as a step that changes nothing and sends nothing.
- `InitialHeaders` assumes the chess.js releases whose header map starts empty, so a new game holds only the four headers the handler sets. Releases that seed the Seven Tag Roster (with `Result "*"` among it) are not modelled; the chess.js version is not pinned.
- `Math.random()` and `new Date()` are the `coin` and `date` inputs.
- Logging is left out.
- Client values of the wrong shape are left out: a move given as a SAN string, or a match id sent as a string that `Map.get` would not find. Ids are naturals and moves are records.
- The unused, never-incremented `matchIterator` exported by the match-handler module is left out. The invite handlers copy it at load time, and only that copy is modelled, in `Invites`.
- Authentication, session middleware, the HTTP routes and the server bootstrap are not part of this model.

=== FILE: backend.dfy ===
/**
 The whole server as one state machine: the match registry, the profile
 table, and the invite registry, driven by socket events and interval
 firings, one at a time. The properties here hold over every sequence of
 such steps: ids are never reused, black's draw flag is never raised (so a
 draw is never agreed), every registered game stays free of a result tag
 until it ends, and each clock has lost exactly ten milliseconds per tick
 taken while its side was on move.
 */
module Backend {
  import opened Basics
  import opened Engine
  import opened DbAccess
  import opened MatchHandlers
  import opened InviteHandlers

  datatype World = World(sessions: Sessions, invites: Invites)

  /** Everything that can happen next, with the inputs the handler reads
      from the transport, the database, the random source and the clock. */
  datatype Action =
    | Join(user: User, matchId: MatchId, inRoom: bool, roomSize: nat)
    | Play(user: User, matchId: MatchId, move: Option<Move>, reply: SaveReply)
    | Resignation(user: User, matchId: MatchId, reply: SaveReply)
    | DrawOffer(user: User, matchId: MatchId, reply: SaveReply)
    | DrawDecline(user: User, matchId: MatchId)
    | ClockTick(matchId: MatchId, reply: SaveReply)
    | ClockPoll(matchId: MatchId)
    | SendInvite(user: User, recipient: Option<User>, recipientSockets: seq<bool>)
    | AnswerInvite(user: User, answer: string, inviteId: InviteId, coin: bool, date: Date)

  /** The server at start-up: no matches, no invites, both counters at 1. */
  function Boot(db: Tallies): World {
    World(Sessions(map[], db), Invites(map[], 1, 1))
  }

  function WithSessions(w: World, o: Outcome): (World, seq<Event>) {
    (w.(sessions := o.st), o.events)
  }

  /** One handler run or interval firing. */
  function Step(w: World, a: Action, o: Oracle): (r: (World, seq<Event>))
    // match actions never touch invites; invite actions never touch profiles
    ensures !a.SendInvite? && !a.AnswerInvite? ==> r.0.invites == w.invites
    ensures a.SendInvite? ==> r.0.sessions == w.sessions
    ensures a.AnswerInvite? ==> r.0.sessions.db == w.sessions.db
  {
    var st := w.sessions;
    match a
    case Join(user, id, inRoom, size) => WithSessions(w, JoinMatchRoom(st, id, user, inRoom, size))
    case Play(user, id, mv, reply) => WithSessions(w, MakeMove(st, id, user, mv, o, reply))
    case Resignation(user, id, reply) => WithSessions(w, Resign(st, id, user, o, reply))
    case DrawOffer(user, id, reply) => WithSessions(w, OfferDraw(st, id, user, o, reply))
    case DrawDecline(user, id) => WithSessions(w, DeclineDraw(st, id, user))
    case ClockTick(id, reply) => WithSessions(w, UpdateActiveClock(st, id, o, TickRate, reply))
    case ClockPoll(id) => WithSessions(w, PollClocks(st, id, o))
    case SendInvite(user, recipient, sockets) =>
      var (inv, events) := HandleInvite(w.invites, user, recipient, sockets);
      (w.(invites := inv), events)
    case AnswerInvite(user, answer, inviteId, coin, date) =>
      match InviteAnswer(w.invites, st.matches, user, answer, inviteId, coin, date, o)
      case Crashed => (w, [])
      case Answered(inv, matches, events) => (World(st.(matches := matches), inv), events)
  }

  function Run(w: World, acts: seq<Action>, o: Oracle): World
    decreases |acts|
  {
    if |acts| == 0 then w else Run(Step(w, acts[0], o).0, acts[1..], o)
  }

  /** Every emit of a run, in order. */
  function Emitted(w: World, acts: seq<Action>, o: Oracle): seq<Event>
    decreases |acts|
  {
    if |acts| == 0 then [] else Step(w, acts[0], o).1 + Emitted(Step(w, acts[0], o).0, acts[1..], o)
  }

  // ------------------------------------------------------------ invariants

  /** Every registered id is below its counter, so the counter is fresh. */
  predicate FreshIds(w: World) {
    && (forall k :: k in w.sessions.matches ==> k < w.invites.matchIterator)
    && (forall k :: k in w.invites.pending ==> k < w.invites.inviteIterator)
  }

  predicate NoBlackOffer(w: World) {
    forall k :: k in w.sessions.matches ==> !w.sessions.matches[k].drawState.blackOffer
  }

  /** Usernames without `[` everywhere: in pending invites, and in the
      (result-free) headers of every registered game. */
  predicate InertGames(w: World) {
    && (forall k :: k in w.sessions.matches ==> InertHeaders(w.sessions.matches[k].game.headers))
    && (forall k :: k in w.invites.pending ==>
          NoBracket(w.invites.pending[k].inviter.username) && NoBracket(w.invites.pending[k].recipient.username))
  }

  /** The users an action brings in have usernames without `[`. */
  predicate CleanNames(a: Action) {
    a.SendInvite? ==>
      NoBracket(a.user.username) && (a.recipient.Some? ==> NoBracket(a.recipient.value.username))
  }

  predicate Invariant(w: World) {
    FreshIds(w) && NoBlackOffer(w) && InertGames(w)
  }

  lemma BootInvariant(db: Tallies)
    ensures Invariant(Boot(db))
  {
  }

  /** The handlers of the match module touch only the match they name. */
  lemma SessionStep(w: World, a: Action, o: Oracle)
    requires !a.SendInvite? && !a.AnswerInvite?
    ensures var w' := Step(w, a, o).0;
            && w'.invites == w.invites
            && Confined(w.sessions, w'.sessions, a.matchId)
            && (!a.ClockTick? ==> Survives(w.sessions, w'.sessions, a.matchId))
  {
  }

  /** A tick keeps the match's players, headers, draw flags and liveness. */
  lemma TickKeepsRecord(w: World, id: MatchId, reply: SaveReply, o: Oracle)
    requires id in Step(w, ClockTick(id, reply), o).0.sessions.matches
    ensures var m' := Step(w, ClockTick(id, reply), o).0.sessions.matches[id];
            && id in w.sessions.matches
            && var m := w.sessions.matches[id];
            && m'.game == m.game && m'.drawState == m.drawState && m'.live == m.live
            && m'.whiteId == m.whiteId && m'.blackId == m.blackId
  {
  }

  /** A match handler or an interval firing keeps the invariant: it only
      edits or removes the match it names, never raises black's flag, and
      leaves headers alone. */
  lemma SessionStepInvariant(w: World, a: Action, o: Oracle)
    requires Invariant(w) && !a.SendInvite? && !a.AnswerInvite?
    ensures Invariant(Step(w, a, o).0)
    ensures Step(w, a, o).0.invites == w.invites
  {
    var w' := Step(w, a, o).0;
    SessionStep(w, a, o);
    if a.ClockTick? && a.matchId in w'.sessions.matches {
      TickKeepsRecord(w, a.matchId, a.reply, o);
    }
    forall k | k in w'.sessions.matches
      ensures k in w.sessions.matches
      ensures w'.sessions.matches[k].game.headers == w.sessions.matches[k].game.headers
      ensures !w'.sessions.matches[k].drawState.blackOffer
    {
    }
  }

  /** Storing an invite keeps the invariant when both users' names are clean. */
  lemma InviteStepInvariant(w: World, a: Action, o: Oracle)
    requires Invariant(w) && a.SendInvite? && CleanNames(a)
    ensures Invariant(Step(w, a, o).0)
    ensures Step(w, a, o).0.invites.matchIterator == w.invites.matchIterator
  {
  }

  /** An accepted invite adds a match with a fresh id and clean headers. */
  lemma AcceptKeepsInvariant(w: World, user: User, answer: string, inviteId: InviteId, coin: bool, date: Date,
                             o: Oracle)
    requires Invariant(w) && answer != "decline" && inviteId in w.invites.pending
    ensures var r := InviteAnswer(w.invites, w.sessions.matches, user, answer, inviteId, coin, date, o);
            r.Answered? && Invariant(World(w.sessions.(matches := r.matches), r.inv))
  {
    var inv := w.invites;
    var r := InviteAnswer(inv, w.sessions.matches, user, answer, inviteId, coin, date, o);
    var invite := inv.pending[inviteId];
    var players := ShuffleTwo(invite.inviter, invite.recipient, coin);
    NewMatchHeaders(players[0], players[1], date);
    var m := GenerateNewMatch(players[0], players[1], date, o);
    assert r.matches == w.sessions.matches[inv.matchIterator := m];
    assert InertHeaders(m.game.headers);
    assert !m.drawState.blackOffer;
  }

  /** Answering an invite keeps the invariant: a decline only drops the
      invite, and an acceptance also adds the new match. */
  lemma AnswerStepInvariant(w: World, a: Action, o: Oracle)
    requires Invariant(w) && a.AnswerInvite?
    ensures Invariant(Step(w, a, o).0)
    ensures Step(w, a, o).0.invites.matchIterator >= w.invites.matchIterator
  {
    if a.answer != "decline" && a.inviteId in w.invites.pending {
      AcceptKeepsInvariant(w, a.user, a.answer, a.inviteId, a.coin, a.date, o);
    }
  }

  lemma StepInvariant(w: World, a: Action, o: Oracle)
    requires Invariant(w) && CleanNames(a)
    ensures Invariant(Step(w, a, o).0)
    ensures Step(w, a, o).0.invites.matchIterator >= w.invites.matchIterator
  {
    if a.SendInvite? {
      InviteStepInvariant(w, a, o);
    } else if a.AnswerInvite? {
      AnswerStepInvariant(w, a, o);
    } else {
      SessionStepInvariant(w, a, o);
    }
  }

  lemma {:induction false} RunInvariant(w: World, acts: seq<Action>, o: Oracle)
    requires Invariant(w) && forall i :: 0 <= i < |acts| ==> CleanNames(acts[i])
    ensures Invariant(Run(w, acts, o))
    decreases |acts|
  {
    if |acts| > 0 {
      StepInvariant(w, acts[0], o);
      RunInvariant(Step(w, acts[0], o).0, acts[1..], o);
    }
  }

  // ------------------------------------------------------------ the draw-offer defect

  predicate NoAcceptDraw(evs: seq<Event>) {
    forall i :: 0 <= i < |evs| ==> evs[i].name != "acceptDraw"
  }

  /** With black's flag down, an offer only tells the opponent. */
  lemma OfferWithoutAccept(st: Sessions, id: MatchId, user: User, o: Oracle, reply: SaveReply)
    requires forall k :: k in st.matches ==> !st.matches[k].drawState.blackOffer
    ensures NoAcceptDraw(OfferDraw(st, id, user, o, reply).events)
  {
    if id in st.matches && IsParticipant(st.matches[id], user) {
      assert !st.matches[id].drawState.blackOffer;
    }
  }

  /** Black's flag stays down under every step, whoever the users are: a
      match handler only lowers flags or raises white's, a tick leaves them,
      and a new match starts with both down. */
  lemma NoBlackOfferStep(w: World, a: Action, o: Oracle)
    requires NoBlackOffer(w)
    ensures NoBlackOffer(Step(w, a, o).0)
  {
    var w' := Step(w, a, o).0;
    if a.AnswerInvite? {
      if a.answer != "decline" && a.inviteId in w.invites.pending {
        NewMatchFlagsDown(w, a.user, a.answer, a.inviteId, a.coin, a.date, o);
      }
    } else if !a.SendInvite? {
      SessionStep(w, a, o);
      if a.ClockTick? && a.matchId in w'.sessions.matches {
        TickKeepsRecord(w, a.matchId, a.reply, o);
      }
      forall k | k in w'.sessions.matches
        ensures !w'.sessions.matches[k].drawState.blackOffer
      {
      }
    }
  }

  lemma NewMatchFlagsDown(w: World, user: User, answer: string, inviteId: InviteId, coin: bool, date: Date, o: Oracle)
    requires NoBlackOffer(w) && answer != "decline" && inviteId in w.invites.pending
    ensures var r := InviteAnswer(w.invites, w.sessions.matches, user, answer, inviteId, coin, date, o);
            r.Answered? && forall k :: k in r.matches ==> !r.matches[k].drawState.blackOffer
  {
    var invite := w.invites.pending[inviteId];
    var players := ShuffleTwo(invite.inviter, invite.recipient, coin);
    var m := GenerateNewMatch(players[0], players[1], date, o);
    assert !m.drawState.blackOffer;
  }

  /** With black's flag down, no step agrees a draw. */
  lemma StepNeverAcceptsDraw(w: World, a: Action, o: Oracle)
    requires NoBlackOffer(w)
    ensures NoAcceptDraw(Step(w, a, o).1)
  {
    if a.DrawOffer? {
      OfferWithoutAccept(w.sessions, a.matchId, a.user, o, a.reply);
    }
  }

  /** Over any run from start-up, whatever the usernames, no `acceptDraw`
      is ever sent: an offer can only raise white's flag, and the agreement
      needs black's too. */
  lemma {:induction false} DrawNeverAgreed(w: World, acts: seq<Action>, o: Oracle)
    requires NoBlackOffer(w)
    ensures NoAcceptDraw(Emitted(w, acts, o))
    decreases |acts|
  {
    if |acts| > 0 {
      StepNeverAcceptsDraw(w, acts[0], o);
      NoBlackOfferStep(w, acts[0], o);
      DrawNeverAgreed(Step(w, acts[0], o).0, acts[1..], o);
    }
  }

  /** Offering a draw never ends a match of a reachable state: the offer
      only raises white's flag and tells the opponent. */
  lemma OfferNeverEndsMatch(w: World, user: User, id: MatchId, reply: SaveReply, o: Oracle)
    requires NoBlackOffer(w) && id in w.sessions.matches && IsParticipant(w.sessions.matches[id], user)
    ensures var w' := Step(w, DrawOffer(user, id, reply), o).0;
            && id in w'.sessions.matches
            && w'.sessions.matches[id].drawState == DrawState(true, false)
            && w'.sessions.db == w.sessions.db
  {
  }

  // ------------------------------------------------------------ ids and the clock

  /** An id that has left the registry never comes back. */
  lemma {:induction false} GoneStaysGone(w: World, acts: seq<Action>, o: Oracle, id: MatchId)
    requires FreshIds(w) && id !in w.sessions.matches && id < w.invites.matchIterator
    ensures id !in Run(w, acts, o).sessions.matches
    decreases |acts|
  {
    if |acts| > 0 {
      var w' := Step(w, acts[0], o).0;
      FreshStep(w, acts[0], o);
      if !acts[0].SendInvite? && !acts[0].AnswerInvite? {
        SessionStep(w, acts[0], o);
      }
      GoneStaysGone(w', acts[1..], o, id);
    }
  }

  /** Freshness alone is preserved by every step, and the match counter only
      grows. */
  lemma FreshStep(w: World, a: Action, o: Oracle)
    requires FreshIds(w)
    ensures FreshIds(Step(w, a, o).0)
    ensures Step(w, a, o).0.invites.matchIterator >= w.invites.matchIterator
    ensures a.AnswerInvite? ==>
      Step(w, a, o).0.sessions.matches.Keys <= w.sessions.matches.Keys + {w.invites.matchIterator}
  {
    if !a.SendInvite? && !a.AnswerInvite? {
      SessionStep(w, a, o);
    }
  }

  /** What one step takes off the `c` clock of match `id`. */
  function TickDebit(w: World, a: Action, o: Oracle, id: MatchId, c: Color): int {
    if a.ClockTick? && a.matchId == id && id in w.sessions.matches && w.sessions.matches[id].live
       && Turn(o, w.sessions.matches[id].game) == c
    then TickRate else 0
  }

  /** How many ticks of a run fired on match `id` while `c` was on move. */
  function TicksOnMove(w: World, acts: seq<Action>, o: Oracle, id: MatchId, c: Color): nat
    decreases |acts|
  {
    if |acts| == 0 then 0
    else (if TickDebit(w, acts[0], o, id, c) == 0 then 0 else 1)
         + TicksOnMove(Step(w, acts[0], o).0, acts[1..], o, id, c)
  }

  /** One step changes the clock of a surviving match only by a tick on it,
      and only on the side to move. */
  lemma ClockStep(w: World, a: Action, o: Oracle, id: MatchId)
    requires FreshIds(w) && id in w.sessions.matches
    requires id in Step(w, a, o).0.sessions.matches
    ensures forall c: Color ::
      Step(w, a, o).0.sessions.matches[id].clock.Remaining(c)
        == w.sessions.matches[id].clock.Remaining(c) - TickDebit(w, a, o, id, c)
  {
    var w' := Step(w, a, o).0;
    if a.AnswerInvite? {
      assert id < w.invites.matchIterator;
    } else if a.SendInvite? {
    } else {
      SessionStep(w, a, o);
      if a.ClockTick? && a.matchId == id && w.sessions.matches[id].live {
        var m := w.sessions.matches[id];
        var turn := Turn(o, m.game);
        assert w'.sessions.matches[id].clock == Debit(m.clock, turn, TickRate);
        assert turn.Opponent() != turn;
      }
    }
  }

  /** The clock invariant: while a match is registered, each side's
      remaining time is what it had minus ten milliseconds for every tick
      that fired while that side was on move. */
  lemma {:induction false} ClockAccounts(w: World, acts: seq<Action>, o: Oracle, id: MatchId)
    requires FreshIds(w) && id in w.sessions.matches
    requires id in Run(w, acts, o).sessions.matches
    ensures forall c: Color ::
      Run(w, acts, o).sessions.matches[id].clock.Remaining(c)
        == w.sessions.matches[id].clock.Remaining(c) - TickRate * TicksOnMove(w, acts, o, id, c)
    decreases |acts|
  {
    if |acts| > 0 {
      var w' := Step(w, acts[0], o).0;
      FreshStep(w, acts[0], o);
      if id !in w'.sessions.matches {
        GoneStaysGone(w', acts[1..], o, id);
        assert false;
      }
      ClockStep(w, acts[0], o, id);
      ClockAccounts(w', acts[1..], o, id);
    }
  }
}

=== FILE: basics.dfy ===
/**
 Shared vocabulary of the chess backend model: optional values, users,
 colours, and the socket.io emits every handler produces as output events.
 */
module Basics {

  datatype Option<+T> = None | Some(value: T)

  type UserId = nat

  /** The identity a socket is resolved to before any handler runs. */
  datatype User = User(id: UserId, username: string)

  /** The side to move, as chess.js reports it ("w" or "b"). */
  datatype Color = W | B {
    function Opponent(): (c: Color)
      ensures c != this
    {
      if this == W then B else W
    }

    /** The one-letter tag the handlers emit for a colour. */
    function Tag(): string {
      if this == W then "w" else "b"
    }
  }

  /** A chess.js move object as a client sends it: `{from, to, promotion?}`. */
  datatype Move = Move(from: string, to: string, promotion: Option<string>)

  /** Where socket.io delivers an emit. */
  datatype Target =
    | Caller                   // socket.emit: only the socket that sent the event
    | UserRoom(user: UserId)   // io.to(`user:${id}`): every socket of one user
    | MatchRoom(matchId: nat)  // io.to(`match:${id}`): both players' match sockets
    | ObjectRoom               // io.to(`user:${obj}`) with an object: the room "user:[object Object]"

  datatype Arg = Str(s: string) | Num(n: int) | MoveArg(m: Move)

  /** One socket.io emit: target, event name and arguments. */
  datatype Event = Emit(to: Target, name: string, args: seq<Arg>)

  predicate IsDigit(c: char) {
    '0' <= c <= '9'
  }

  /** Decimal rendering of a natural number, as a JavaScript template literal prints it. */
  function NatToString(n: nat): (s: string)
    ensures |s| > 0
    ensures forall i :: 0 <= i < |s| ==> IsDigit(s[i])
    decreases n
  {
    var d := [(('0' as int) + n % 10) as char];
    if n < 10 then d else NatToString(n / 10) + d
  }
}

=== FILE: db_access.dfy ===
/**
 The part of the persistence layer with logic in it: finding the result tag
 in a finished game's PGN, turning it into win/loss/draw increments on the
 players' profiles, and the order of the steps that save a game. The SQL
 itself is I/O; a query's success is an input and the profile table is a
 map from user id to tally.
 */
module DbAccess {
  import opened Basics

  /** The text the result regex requires before the captured token. */
  const ResultOpen: string := "[Result \""

  /** The three tokens the tally switch knows. */
  const WhiteWins: string := "1-0"
  const BlackWins: string := "0-1"
  const DrawToken: string := "1/2-1/2"

  /** The regex alternative `\d\/\d-\d\/\d`. */
  predicate IsFractionToken(t: string) {
    && |t| == 7
    && IsDigit(t[0]) && t[1] == '/' && IsDigit(t[2]) && t[3] == '-'
    && IsDigit(t[4]) && t[5] == '/' && IsDigit(t[6])
  }

  /** The regex alternative `\d+-\d+`. */
  predicate IsScoreToken(t: string) {
    exists k :: 1 <= k < |t| - 1 && t[k] == '-' && IsDigitsExcept(t, k)
  }

  predicate IsDigitsExcept(t: string, k: int) {
    forall j :: 0 <= j < |t| && j != k ==> IsDigit(t[j])
  }

  /** What the capture group `(\d\/\d-\d\/\d|\d+-\d+)` accepts. */
  predicate IsResultToken(t: string) {
    IsFractionToken(t) || IsScoreToken(t)
  }

  lemma KnownTokensMatch()
    ensures IsResultToken(WhiteWins) && IsResultToken(BlackWins) && IsResultToken(DrawToken)
  {
    assert WhiteWins[1] == '-' && IsDigitsExcept(WhiteWins, 1);
    assert BlackWins[1] == '-' && IsDigitsExcept(BlackWins, 1);
  }

  lemma ResultTokenHasNoQuote(t: string)
    requires IsResultToken(t)
    ensures forall j :: 0 <= j < |t| ==> t[j] != '"'
  {
    if !IsFractionToken(t) {
      var k :| 1 <= k < |t| - 1 && t[k] == '-' && IsDigitsExcept(t, k);
    }
  }

  /** Index of the first double quote in `s`, or `|s|` if there is none. */
  function QuoteIndex(s: string): (q: nat)
    ensures q <= |s|
    ensures q < |s| ==> s[q] == '"'
    ensures forall j :: 0 <= j < q ==> s[j] != '"'
  {
    if |s| == 0 then 0
    else if s[0] == '"' then 0
    else 1 + QuoteIndex(s[1..])
  }

  /** The regex `\[Result "(\d\/\d-\d\/\d|\d+-\d+)"\]` anchored at the start
      of `s`: the capture, if it matches there. Neither alternative contains
      a quote, so the capture is exactly the text up to the next quote. */
  function TagAt(s: string): (r: Option<string>)
    ensures r.Some? ==> |s| >= 2 && s[0] == '[' && s[1] == 'R'
    ensures r.Some? ==> IsResultToken(r.value)
    ensures r.Some? ==> LineAt(s, 0, r.value)
  {
    if |s| < |ResultOpen| || s[..|ResultOpen|] != ResultOpen then None
    else
      var rest := s[|ResultOpen|..];
      var q := QuoteIndex(rest);
      if q + 1 < |rest| && rest[q + 1] == ']' && IsResultToken(rest[..q]) then
        assert s == ResultOpen + rest;
        assert s[..|ResultOpen| + q + 2] == ResultOpen + rest[..q] + "\"]";
        Some(rest[..q])
      else None
  }

  /** The text `[Result "t"]` stands in `s` at position `k`. */
  predicate LineAt(s: string, k: nat, t: string) {
    && k + |ResultOpen| + |t| + 2 <= |s|
    && s[k..k + |ResultOpen| + |t| + 2] == ResultOpen + t + "\"]"
  }

  /** The text `[Result "` stands in `s` at position `k`. */
  predicate OpensAt(s: string, k: nat) {
    k + |ResultOpen| <= |s| && s[k..k + |ResultOpen|] == ResultOpen
  }

  /** The regex matches `s` at position `k`. */
  predicate MatchesAt(s: string, k: nat)
    requires k <= |s|
  {
    TagAt(s[k..]).Some?
  }

  /** No match starts in `s` at a position from `i` up to, not including, `j`. */
  predicate LeftmostFrom(s: string, i: nat, j: nat)
    requires i <= j <= |s| + 1
  {
    forall k :: i <= k < j && k <= |s| ==> !MatchesAt(s, k)
  }

  /** Where the leftmost match at or after position `i` starts. */
  function FirstTagIndex(s: string, i: nat): (r: Option<nat>)
    requires i <= |s|
    ensures r.Some? ==> i <= r.value <= |s| && MatchesAt(s, r.value) && LeftmostFrom(s, i, r.value)
    ensures r.None? ==> LeftmostFrom(s, i, |s| + 1)
    decreases |s| - i
  {
    if MatchesAt(s, i) then Some(i)
    else if i == |s| then None
    else
      var r := FirstTagIndex(s, i + 1);
      LeftmostStep(s, i, if r.Some? then r.value else |s| + 1);
      r
  }

  lemma LeftmostStep(s: string, i: nat, j: nat)
    requires i < j <= |s| + 1 && !MatchesAt(s, i) && LeftmostFrom(s, i + 1, j)
    ensures LeftmostFrom(s, i, j)
  {
  }

  /** `pgn.match(resultRegex)`, and `match[1]` when it succeeds. */
  function ResultOf(pgn: string): (r: Option<string>)
    ensures r.Some? ==> IsResultToken(r.value)
    ensures r.None? <==> forall j :: 0 <= j <= |pgn| ==> !MatchesAt(pgn, j)
    ensures r.Some? ==> exists j :: 0 <= j <= |pgn| && LineAt(pgn, j, r.value)
  {
    match FirstTagIndex(pgn, 0)
    case None => None
    case Some(j) =>
      var r := TagAt(pgn[j..]);
      LineShift(pgn, j, r.value);
      r
  }

  /** A result line at the start of a suffix stands at the suffix's offset. */
  lemma LineShift(s: string, j: nat, t: string)
    requires j <= |s| && LineAt(s[j..], 0, t)
    ensures LineAt(s, j, t)
  {
    assert s[j..][0..|ResultOpen| + |t| + 2] == s[j..j + |ResultOpen| + |t| + 2];
  }

  /** The leftmost match is the answer: a match at `j` with none before it
      is what the regex returns. */
  lemma ResultOfLeftmost(s: string, j: nat, t: string)
    requires j <= |s| && TagAt(s[j..]) == Some(t) && LeftmostFrom(s, 0, j)
    ensures ResultOf(s) == Some(t)
  {
    assert MatchesAt(s, j);
    var r := FirstTagIndex(s, 0);
    assert r.Some?;
    var j' := r.value;
    assert MatchesAt(s, j');
    assert j' == j;
  }

  /** A result tag line for token `t`, with anything after it. */
  lemma TagAtResultLine(t: string, tail: string)
    requires IsResultToken(t)
    ensures TagAt(ResultOpen + t + "\"]" + tail) == Some(t)
  {
    var s := ResultOpen + t + "\"]" + tail;
    assert s[..|ResultOpen|] == ResultOpen;
    var rest := s[|ResultOpen|..];
    assert rest == t + "\"]" + tail;
    ResultTokenHasNoQuote(t);
    assert rest[|t|] == '"';
    assert QuoteIndex(rest) == |t|;
    assert rest[..|t|] == t;
  }

  // ---------------------------------------------------------------- tallies

  datatype Tally = Tally(wins: nat, losses: nat, draws: nat)

  /** The `profile` table: wins, losses and draws per user id. */
  type Tallies = map<UserId, Tally>

  datatype Column = Wins | Losses | Draws

  function Increment(x: Tally, c: Column): Tally {
    match c
    case Wins => x.(wins := x.wins + 1)
    case Losses => x.(losses := x.losses + 1)
    case Draws => x.(draws := x.draws + 1)
  }

  /** `UPDATE profile SET <column> = <column> + 1 WHERE user_id IN ids`:
      every matched row once; an id without a profile row matches nothing. */
  function BumpWhere(t: Tallies, ids: set<UserId>, c: Column): (t': Tallies)
    ensures t'.Keys == t.Keys
  {
    map u | u in t :: if u in ids then Increment(t[u], c) else t[u]
  }

  /** What a finished game with result `token` is worth to user `u`:
      the reference against which the query sequence is checked. */
  function Credit(token: string, whiteId: UserId, blackId: UserId, u: UserId): Tally {
    if token == BlackWins then
      Tally(if u == blackId then 1 else 0, if u == whiteId then 1 else 0, 0)
    else if token == WhiteWins then
      Tally(if u == whiteId then 1 else 0, if u == blackId then 1 else 0, 0)
    else if token == DrawToken then
      Tally(0, 0, if u == whiteId || u == blackId then 1 else 0)
    else Tally(0, 0, 0)
  }

  function Plus(a: Tally, b: Tally): Tally {
    Tally(a.wins + b.wins, a.losses + b.losses, a.draws + b.draws)
  }

  predicate IsKnownToken(t: string) {
    t == WhiteWins || t == BlackWins || t == DrawToken
  }

  datatype Stats = Stats(ok: bool, tallies: Tallies)

  /** `updatePlayerStats`: extract the result token; a missing tag or a
      token the switch does not know throws, is caught, and reports false
      before any query ran. */
  function UpdatePlayerStats(whiteId: UserId, blackId: UserId, pgn: string, t: Tallies): (r: Stats)
    ensures r.ok <==> ResultOf(pgn).Some? && IsKnownToken(ResultOf(pgn).value)
    ensures !r.ok ==> r.tallies == t
    ensures r.tallies.Keys == t.Keys
  {
    match ResultOf(pgn)
    case None => Stats(false, t)
    case Some(token) =>
      if token == BlackWins then
        Stats(true, BumpWhere(BumpWhere(t, {blackId}, Wins), {whiteId}, Losses))
      else if token == WhiteWins then
        Stats(true, BumpWhere(BumpWhere(t, {whiteId}, Wins), {blackId}, Losses))
      else if token == DrawToken then
        Stats(true, BumpWhere(t, {blackId, whiteId}, Draws))
      else Stats(false, t)
  }

  /** One query's increment for user `u`. */
  function Unit(c: Column, hit: bool): Tally {
    if !hit then Tally(0, 0, 0)
    else match c
      case Wins => Tally(1, 0, 0)
      case Losses => Tally(0, 1, 0)
      case Draws => Tally(0, 0, 1)
  }

  lemma BumpAt(t: Tallies, ids: set<UserId>, c: Column, u: UserId)
    requires u in t
    ensures BumpWhere(t, ids, c)[u] == Plus(t[u], Unit(c, u in ids))
  {
  }

  /** The queries `updatePlayerStats` runs add to every profile exactly what
      the result is worth to that user, and nothing to anyone else. */
  lemma StatsMatchCredit(whiteId: UserId, blackId: UserId, pgn: string, t: Tallies, u: UserId)
    requires u in t
    requires UpdatePlayerStats(whiteId, blackId, pgn, t).ok
    ensures UpdatePlayerStats(whiteId, blackId, pgn, t).tallies[u]
         == Plus(t[u], Credit(ResultOf(pgn).value, whiteId, blackId, u))
  {
    var token := ResultOf(pgn).value;
    if token == BlackWins {
      BumpAt(t, {blackId}, Wins, u);
      BumpAt(BumpWhere(t, {blackId}, Wins), {whiteId}, Losses, u);
    } else if token == WhiteWins {
      BumpAt(t, {whiteId}, Wins, u);
      BumpAt(BumpWhere(t, {whiteId}, Wins), {blackId}, Losses, u);
    } else {
      BumpAt(t, {blackId, whiteId}, Draws, u);
    }
  }

  /** No user but the two players is touched by the tally update. */
  lemma StatsTouchOnlyPlayers(whiteId: UserId, blackId: UserId, pgn: string, t: Tallies, u: UserId)
    requires u in t && u != whiteId && u != blackId
    ensures UpdatePlayerStats(whiteId, blackId, pgn, t).tallies[u] == t[u]
  {
    if UpdatePlayerStats(whiteId, blackId, pgn, t).ok {
      StatsMatchCredit(whiteId, blackId, pgn, t, u);
    }
  }

  /** Whether each INSERT of `saveGame` affected exactly one row (a query that
      throws counts as a failure too). */
  datatype SaveReply = SaveReply(matchRow: bool, whiteRow: bool, blackRow: bool)

  /** `saveGame`: insert the game, link it to white, link it to black, then
      update the tallies; the first failing step ends it with false. */
  function SaveGame(whiteId: UserId, blackId: UserId, pgn: string, reply: SaveReply, t: Tallies): (r: Stats)
    ensures r.ok <==> reply.matchRow && reply.whiteRow && reply.blackRow
                      && UpdatePlayerStats(whiteId, blackId, pgn, t).ok
    ensures !(reply.matchRow && reply.whiteRow && reply.blackRow) ==> r.tallies == t
    ensures reply.matchRow && reply.whiteRow && reply.blackRow ==>
      r.tallies == UpdatePlayerStats(whiteId, blackId, pgn, t).tallies
  {
    if !reply.matchRow then Stats(false, t)
    else if !reply.whiteRow then Stats(false, t)
    else if !reply.blackRow then Stats(false, t)
    else UpdatePlayerStats(whiteId, blackId, pgn, t)
  }
}

=== FILE: engine.dfy ===
/**
 The chess.js game object as the handlers see it. The rules engine itself is
 an oracle: a start position, whose turn it is, a partial move function, the
 verdict predicates and the move text of a game record. Nothing about chess
 rules is modelled; every lemma holds for every oracle. What the handlers
 write into the game (PGN headers and comments) is modelled exactly, as is
 the header section of the PGN text that `pgn()` renders.
 */
module Engine {
  import opened Basics

  /** An engine position (chess.js keys positions by FEN). */
  type Position = nat

  /** The answers of `isGameOver`, `isCheckmate`, `isDraw`, `isStalemate`,
      `isThreefoldRepetition` and `inCheck` for one position. */
  datatype Verdicts = Verdicts(
    gameOver: bool,
    checkmate: bool,
    draw: bool,
    stalemate: bool,
    threefold: bool,
    inCheck: bool)

  datatype Oracle = Oracle(
    start: Position,
    turn: Position -> Color,
    play: (Position, Move) -> Option<Position>,   // None: chess.js throws on the move
    verdicts: Position -> Verdicts,
    moveText: (Position, map<Position, string>) -> string)

  datatype Header = Header(key: string, value: string)

  /** One chess.js game: the current position, the PGN headers in insertion
      order, and the comment attached to each position. */
  datatype Game = Game(pos: Position, headers: seq<Header>, comments: map<Position, string>)

  function Turn(o: Oracle, g: Game): Color {
    o.turn(g.pos)
  }

  /** The value stored under `key`, if any. */
  function Lookup(hs: seq<Header>, key: string): (r: Option<string>)
    ensures r.None? <==> forall i :: 0 <= i < |hs| ==> hs[i].key != key
  {
    if |hs| == 0 then None
    else if hs[0].key == key then Some(hs[0].value)
    else Lookup(hs[1..], key)
  }

  /** `header(key, value)`: a JavaScript object property write, which keeps
      an existing key in place (`UpsertKeepsPlaces`) and appends a new one. */
  function Upsert(hs: seq<Header>, key: string, value: string): (r: seq<Header>)
    ensures Lookup(r, key) == Some(value)
    ensures forall k :: k != key ==> Lookup(r, k) == Lookup(hs, k)
    ensures Lookup(hs, key).None? ==> r == hs + [Header(key, value)]
    ensures Lookup(hs, key).Some? ==> |r| == |hs|
  {
    if |hs| == 0 then [Header(key, value)]
    else if hs[0].key == key then
      var r := [Header(key, value)] + hs[1..];
      assert r[1..] == hs[1..];
      r
    else
      var tail := Upsert(hs[1..], key, value);
      var r := [hs[0]] + tail;
      assert r[0] == hs[0] && r[1..] == tail;
      assert Lookup(hs, key).None? ==> hs == [hs[0]] + hs[1..];
      r
  }

  /** Every header already present keeps its place: only values change,
      and a new key goes after all of them. */
  lemma {:induction false} UpsertKeepsPlaces(hs: seq<Header>, key: string, value: string)
    ensures var r := Upsert(hs, key, value);
            |hs| <= |r| && forall i :: 0 <= i < |hs| ==> r[i].key == hs[i].key
    decreases |hs|
  {
    if |hs| > 0 && hs[0].key != key {
      UpsertKeepsPlaces(hs[1..], key, value);
    }
  }

  function SetHeader(g: Game, key: string, value: string): (g': Game)
    ensures g'.pos == g.pos && g'.comments == g.comments
    ensures Lookup(g'.headers, key) == Some(value)
    ensures forall k :: k != key ==> Lookup(g'.headers, k) == Lookup(g.headers, k)
  {
    g.(headers := Upsert(g.headers, key, value))
  }

  /** `setComment(c)`: replaces the comment on the current position. */
  function SetComment(g: Game, c: string): (g': Game)
    ensures g'.pos == g.pos && g'.headers == g.headers
    ensures g.pos in g'.comments && g'.comments[g.pos] == c
    ensures forall p :: p != g.pos && p in g.comments ==> p in g'.comments && g'.comments[p] == g.comments[p]
    ensures g'.comments.Keys == g.comments.Keys + {g.pos}
  {
    g.(comments := g.comments[g.pos := c])
  }

  /** One header line of a PGN: `[Key "Value"]` and a newline. */
  function HeaderLine(h: Header): string {
    "[" + h.key + " \"" + h.value + "\"]\n"
  }

  function RenderHeaders(hs: seq<Header>): string {
    if |hs| == 0 then "" else HeaderLine(hs[0]) + RenderHeaders(hs[1..])
  }

  /** `pgn()`: the header section, a blank line, then the move text. The
      text starts with one line per header in insertion order, and a game
      with headers starts with `[`. */
  function Pgn(o: Oracle, g: Game): (r: string)
    ensures |g.headers| > 0 ==> |r| > 0 && r[0] == '['
    ensures var n := |RenderHeaders(g.headers)|;
            && n < |r|
            && r[..n] == RenderHeaders(g.headers)
            && r[n] == '\n'
            && r[n + 1..] == o.moveText(g.pos, g.comments)
  {
    var hs := RenderHeaders(g.headers);
    var r := hs + "\n" + o.moveText(g.pos, g.comments);
    assert |g.headers| > 0 ==> hs[0] == '[';
    assert r[..|hs|] == hs;
    r
  }

  lemma {:induction false} RenderHeadersAppend(hs: seq<Header>, h: Header)
    ensures RenderHeaders(hs + [h]) == RenderHeaders(hs) + HeaderLine(h)
    decreases |hs|
  {
    if |hs| == 0 {
      assert hs + [h] == [h];
      assert RenderHeaders([h]) == HeaderLine(h) + RenderHeaders([]);
    } else {
      assert (hs + [h])[1..] == hs[1..] + [h];
      RenderHeadersAppend(hs[1..], h);
    }
  }

  /** No position of `s` starts a `[Result "` tag, and that stays so whatever
      text follows `s`: every `[` is followed, inside `s`, by something other
      than `R`. */
  predicate NoTagStart(s: string) {
    forall i :: 0 <= i < |s| && s[i] == '[' ==> i + 1 < |s| && s[i + 1] != 'R'
  }

  lemma NoTagStartConcat(p: string, q: string)
    requires NoTagStart(p) && NoTagStart(q)
    ensures NoTagStart(p + q)
  {
    forall i | 0 <= i < |p + q| && (p + q)[i] == '['
      ensures i + 1 < |p + q| && (p + q)[i + 1] != 'R'
    {
      if i >= |p| {
        assert q[i - |p|] == '[';
      }
    }
  }

  /** A header that cannot be mistaken for a result tag: its key is not
      empty, does not start with `R`, and neither key nor value holds `[`. */
  predicate InertHeader(h: Header) {
    && |h.key| > 0
    && h.key[0] != 'R'
    && (forall i :: 0 <= i < |h.key| ==> h.key[i] != '[')
    && (forall i :: 0 <= i < |h.value| ==> h.value[i] != '[')
  }

  lemma InertHeaderLine(h: Header)
    requires InertHeader(h)
    ensures NoTagStart(HeaderLine(h))
  {
    var s := HeaderLine(h);
    var k := |h.key|;
    var v := |h.value|;
    assert |s| == k + v + 6;
    assert forall j :: 1 <= j <= k ==> s[j] == h.key[j - 1];
    assert forall j :: k + 3 <= j < k + 3 + v ==> s[j] == h.value[j - k - 3];
    assert s[0] == '[' && s[1] == h.key[0];
    assert s[k + 1] == ' ' && s[k + 2] == '"';
    assert s[k + 3 + v] == '"' && s[k + 4 + v] == ']' && s[k + 5 + v] == '\n';
  }

  lemma {:induction false} InertHeadersRender(hs: seq<Header>)
    requires forall i :: 0 <= i < |hs| ==> InertHeader(hs[i])
    ensures NoTagStart(RenderHeaders(hs))
    decreases |hs|
  {
    if |hs| > 0 {
      InertHeaderLine(hs[0]);
      InertHeadersRender(hs[1..]);
      NoTagStartConcat(HeaderLine(hs[0]), RenderHeaders(hs[1..]));
    }
  }
}

=== FILE: invite_handlers.dfy ===
/**
 The invite registry: pending invites keyed by a counter, the checks an
 invite must pass, and the answer that either creates a match or discards
 the invite. The user lookup, the recipient's sockets, the coin of
 `Math.random()` and the calendar date are inputs.
 */
module InviteHandlers {
  import opened Basics
  import opened Engine
  import opened DbAccess
  import opened MatchHandlers

  type InviteId = nat

  datatype Invite = Invite(inviter: User, recipient: User)

  /** The module state of the invite handlers: the pending invites, the next
      invite id, and the next match id (the handlers' own copy of
      `matchIterator`, the only one ever incremented). */
  datatype Invites = Invites(pending: map<InviteId, Invite>, inviteIterator: nat, matchIterator: nat)

  /** A `Date` as the handlers read it: `getMonth()` counts from 0. */
  datatype Date = Date(month0: nat, day: nat, year: nat)

  const Site: string := "Fun and Free Online Chess"

  /** The Date header value `${getMonth()}-${getDate()}-${getFullYear()}`. */
  function DateTag(d: Date): (s: string)
    ensures forall i :: 0 <= i < |s| ==> s[i] == '-' || IsDigit(s[i])
  {
    NatToString(d.month0) + "-" + NatToString(d.day) + "-" + NatToString(d.year)
  }

  /** The four headers a new game starts with, keyed White, Black, Site and
      Date in that order; no Result yet. */
  function InitialHeaders(white: User, black: User, date: Date): (hs: seq<Header>)
    ensures |hs| == 4
    ensures hs[0].key == "White" && hs[1].key == "Black" && hs[2].key == "Site" && hs[3].key == "Date"
    ensures hs[0].value == white.username && hs[1].value == black.username
    ensures hs[2].value == Site && hs[3].value == DateTag(date)
    ensures forall i :: 0 <= i < |hs| ==> hs[i].key != "Result"
  {
    [Header("White", white.username), Header("Black", black.username),
     Header("Site", Site), Header("Date", DateTag(date))]
  }

  /** Every header is inert: a username without `[` cannot be mistaken for a
      result tag in the PGN. */
  predicate InertHeaders(hs: seq<Header>) {
    forall i :: 0 <= i < |hs| ==> InertHeader(hs[i])
  }

  predicate NoBracket(s: string) {
    forall i :: 0 <= i < |s| ==> s[i] != '['
  }

  /** `generateNewMatch(whitePlayer, blackPlayer)`: a fresh game tagged with
      both usernames, the site and the date, not live, no draw offers, and a
      full minute on each clock. */
  function GenerateNewMatch(white: User, black: User, date: Date, o: Oracle): (m: Match)
    ensures !m.live
    ensures m.whiteId == white.id && m.blackId == black.id
    ensures m.drawState == DrawState(false, false)
    ensures m.clock.Remaining(W) == InitialTime && m.clock.Remaining(B) == InitialTime
    ensures m.game.pos == o.start && m.game.comments == map[]
    ensures m.game.headers == InitialHeaders(white, black, date)
  {
    Match(Game(o.start, InitialHeaders(white, black, date), map[]), false, white.id, black.id, DrawState(false, false),
          Clock(InitialTime, InitialTime))
  }

  /** The new game's headers name white and black, carry no result yet, and
      are inert when the usernames hold no `[`. */
  lemma NewMatchHeaders(white: User, black: User, date: Date)
    ensures var hs := InitialHeaders(white, black, date);
            && Lookup(hs, "White") == Some(white.username)
            && Lookup(hs, "Black") == Some(black.username)
            && Lookup(hs, "Result").None?
            && (NoBracket(white.username) && NoBracket(black.username) ==> InertHeaders(hs))
  {
    var hs := InitialHeaders(white, black, date);
    assert hs[1..] == [hs[1], hs[2], hs[3]];
    assert forall i :: 0 <= i < |hs| ==> hs[i].key[0] != 'R';
    if NoBracket(white.username) && NoBracket(black.username) {
      FixedHeadersInert(date);
      assert InertHeader(hs[0]) && InertHeader(hs[1]);
    }
  }

  /** The Site and Date headers are inert whatever the date. */
  lemma FixedHeadersInert(date: Date)
    ensures InertHeader(Header("Site", Site)) && InertHeader(Header("Date", DateTag(date)))
  {
    var d := DateTag(date);
    assert forall i :: 0 <= i < |d| ==> d[i] != '[';
  }

  /** `shuffleTwo(val1, val2)`: `coin` is `Math.random() < 0.5`, which swaps. */
  function ShuffleTwo<T>(a: T, b: T, coin: bool): (r: seq<T>)
    ensures |r| == 2
    ensures multiset(r) == multiset{a, b}
    ensures r == [a, b] || r == [b, a]
    ensures r[0] == (if coin then b else a)
  {
    if coin then [b, a] else [a, b]
  }

  function InviteStatus(msg: string): Event {
    Emit(Caller, "invite", [Str(msg)])
  }

  /** The `invite` handler. `recipient` is what `getUserByUsername` found;
      `recipientSockets` lists the recipient's sockets, each with whether it
      is in the invite room (only the first one is looked at). */
  function HandleInvite(inv: Invites, user: User, recipient: Option<User>, recipientSockets: seq<bool>): (r: (Invites, seq<Event>))
    // the checks, in order; a rejection leaves the registry alone
    ensures recipient.None? ==> r == (inv, [InviteStatus("User not found")])
    ensures recipient.Some? && recipient.value.id == user.id ==> r == (inv, [InviteStatus("Cannot invite self")])
    ensures recipient.Some? && recipient.value.id != user.id && |recipientSockets| == 0 ==>
      r == (inv, [InviteStatus("User not online")])
    ensures recipient.Some? && recipient.value.id != user.id && |recipientSockets| > 0 && !recipientSockets[0] ==>
      r == (inv, [InviteStatus("User not in invite room")])
    // success: stored under the current id, which then moves on
    ensures r.0 != inv <==> recipient.Some? && recipient.value.id != user.id && |recipientSockets| > 0 && recipientSockets[0]
    ensures r.0 != inv ==>
      && r.0.pending == inv.pending[inv.inviteIterator := Invite(user, recipient.value)]
      && r.0.inviteIterator == inv.inviteIterator + 1
      && r.0.matchIterator == inv.matchIterator
      && r.1 == [Emit(UserRoom(recipient.value.id), "inviteAsk", [Str(user.username), Num(inv.inviteIterator)]),
                 InviteStatus("Invite sent")]
  {
    if recipient.None? then (inv, [InviteStatus("User not found")])
    else if recipient.value.id == user.id then (inv, [InviteStatus("Cannot invite self")])
    else if |recipientSockets| == 0 then (inv, [InviteStatus("User not online")])
    else if !recipientSockets[0] then (inv, [InviteStatus("User not in invite room")])
    else
      var id := inv.inviteIterator;
      (inv.(pending := inv.pending[id := Invite(user, recipient.value)], inviteIterator := id + 1),
       [Emit(UserRoom(recipient.value.id), "inviteAsk", [Str(user.username), Num(id)]),
        InviteStatus("Invite sent")])
  }

  /** The result of `inviteAnswer`. `Crashed`: a decline for an id that is
      not pending reads `.inviter` of `undefined`; the TypeError escapes the
      handler before anything changes or is sent. */
  datatype Answer = Answered(inv: Invites, matches: Registry, events: seq<Event>) | Crashed

  function AnswerStatus(to: Target, msg: string): Event {
    Emit(to, "inviteAnswer", [Str(msg)])
  }

  /** The `inviteAnswer` handler. Any answer but "decline" accepts; who
      answers is never checked. A decline notifies the room named after the
      stringified inviter object, deletes the invite, and then falls through
      to the validity check, which now fails. */
  function InviteAnswer(inv: Invites, matches: Registry, user: User, answer: string, inviteId: InviteId,
                        coin: bool, date: Date, o: Oracle): (r: Answer)
    ensures answer == "decline" ==> (r.Crashed? <==> inviteId !in inv.pending)
    ensures answer == "decline" && inviteId in inv.pending ==>
      r == Answered(inv.(pending := inv.pending - {inviteId}), matches,
                    [AnswerStatus(ObjectRoom, "User declined invite"), AnswerStatus(Caller, "Invalid invite id")])
    ensures answer != "decline" && inviteId !in inv.pending ==>
      r == Answered(inv, matches, [AnswerStatus(Caller, "Invalid invite id")])
    ensures answer != "decline" && inviteId in inv.pending ==>
      var invite := inv.pending[inviteId];
      var players := ShuffleTwo(invite.inviter, invite.recipient, coin);
      && r.Answered?
      && r.inv == Invites(inv.pending - {inviteId}, inv.inviteIterator, inv.matchIterator + 1)
      && r.matches == matches[inv.matchIterator := GenerateNewMatch(players[0], players[1], date, o)]
      && r.events == [Emit(UserRoom(players[0].id), "startMatch", [Num(inv.matchIterator), Str("white")]),
                      Emit(UserRoom(players[1].id), "startMatch", [Num(inv.matchIterator), Str("black")])]
  {
    if answer == "decline" && inviteId !in inv.pending then Crashed
    else
      var (inv1, declined) :=
        if answer == "decline" then
          (inv.(pending := inv.pending - {inviteId}), [AnswerStatus(ObjectRoom, "User declined invite")])
        else (inv, []);
      if inviteId !in inv1.pending then
        if answer == "decline" then
          Answered(inv1, matches, declined + [AnswerStatus(Caller, "Invalid invite id")])
        else
          Answered(inv1, matches, [AnswerStatus(Caller, "Invalid invite id")])
      else
        var invite := inv1.pending[inviteId];
        var players := ShuffleTwo(invite.inviter, invite.recipient, coin);
        var id := inv1.matchIterator;
        Answered(inv1.(pending := inv1.pending - {inviteId}, matchIterator := id + 1),
                 matches[id := GenerateNewMatch(players[0], players[1], date, o)],
                 [Emit(UserRoom(players[0].id), "startMatch", [Num(id), Str("white")]),
                  Emit(UserRoom(players[1].id), "startMatch", [Num(id), Str("black")])])
  }

  /** An accepted invite pairs its two users, one as white and one as black,
      and the coin decides which. */
  lemma AcceptPairsBothUsers(inv: Invites, matches: Registry, user: User, answer: string, inviteId: InviteId,
                             coin: bool, date: Date, o: Oracle)
    requires answer != "decline" && inviteId in inv.pending
    ensures var r := InviteAnswer(inv, matches, user, answer, inviteId, coin, date, o);
            var invite := inv.pending[inviteId];
            var m := r.matches[inv.matchIterator];
            && {m.whiteId, m.blackId} == {invite.inviter.id, invite.recipient.id}
            && (m.whiteId == invite.inviter.id <==> !coin || invite.recipient.id == invite.inviter.id)
  {
  }

  /** An invite is consumed by its first answer: a second answer to the same
      id is rejected (or, for a decline, crashes) and creates no match. */
  lemma SecondAnswerRejected(inv: Invites, matches: Registry, u1: User, a1: string, u2: User, a2: string,
                             inviteId: InviteId, coin: bool, date: Date, o: Oracle)
    requires InviteAnswer(inv, matches, u1, a1, inviteId, coin, date, o).Answered?
    ensures var r1 := InviteAnswer(inv, matches, u1, a1, inviteId, coin, date, o);
            var r2 := InviteAnswer(r1.inv, r1.matches, u2, a2, inviteId, coin, date, o);
            r2.Answered? ==> r2.matches == r1.matches && r2.inv == r1.inv
  {
  }

  /** Who answers does not matter: anybody holding an invite id can accept
      or decline it. */
  lemma AnswerIgnoresAnswerer(inv: Invites, matches: Registry, u1: User, u2: User, answer: string,
                              inviteId: InviteId, coin: bool, date: Date, o: Oracle)
    ensures InviteAnswer(inv, matches, u1, answer, inviteId, coin, date, o)
         == InviteAnswer(inv, matches, u2, answer, inviteId, coin, date, o)
  {
  }
}

=== FILE: match_handlers.dfy ===
/**
 The match registry and the per-match state machine of the socket handlers:
 joining a match room, the countdown clock, moves, resignation, draw offers,
 and the three ways a match ends. Each handler is a pure transition from the
 registry and the profile table to their new values plus the emits it makes.
 A handler that awaits the database (the end of a match) is one atomic step;
 the database's answer is the `SaveReply` input.
 */
module MatchHandlers {
  import opened Basics
  import opened Engine
  import opened DbAccess

  type MatchId = nat

  /** Starting allotment of each side, in milliseconds. */
  const InitialTime: int := 60000
  /** A side whose remaining time drops below this has lost on time. */
  const FlagBelow: int := 50
  /** Period of the decrement interval, which is also what each tick subtracts. */
  const TickRate: int := 10

  datatype DrawState = DrawState(whiteOffer: bool, blackOffer: bool)

  /** Remaining milliseconds of each side. */
  datatype Clock = Clock(white: int, black: int) {
    function Remaining(c: Color): int {
      if c == W then white else black
    }
  }

  /** A match record; `live` is set once both players are in the match room. */
  datatype Match = Match(
    game: Game,
    live: bool,
    whiteId: UserId,
    blackId: UserId,
    drawState: DrawState,
    clock: Clock)

  type Registry = map<MatchId, Match>

  /** What the match handlers read and write: the registry, and the profile
      table that ending a match updates. */
  datatype Sessions = Sessions(matches: Registry, db: Tallies)

  datatype Outcome = Outcome(st: Sessions, events: seq<Event>)

  // ------------------------------------------------------------ emits

  function MoveError(msg: string): Event {
    Emit(Caller, "moveError", [Str(msg)])
  }

  function UpdateClock(id: MatchId, c: Color, ms: int): Event {
    Emit(MatchRoom(id), "updateClock", [Str(c.Tag()), Num(ms)])
  }

  function ValidMove(id: MatchId, mv: Move, status: string): Event {
    Emit(MatchRoom(id), "validMove", [MoveArg(mv), Str(status)])
  }

  // ------------------------------------------------------------ frames

  /** Only entry `id` may change or go, no entry appears, and every other
      entry stays as it was. */
  predicate Confined(st: Sessions, st': Sessions, id: MatchId) {
    && st'.matches.Keys <= st.matches.Keys
    && (forall k :: k in st.matches && k != id ==> k in st'.matches && st'.matches[k] == st.matches[k])
  }

  /** How a match that stays in the registry may change under any handler
      but the clock tick: same players, same headers, same clock, a black
      draw offer never appears, and a live match stays live. */
  predicate Evolves(m: Match, m': Match) {
    && m'.whiteId == m.whiteId
    && m'.blackId == m.blackId
    && m'.game.headers == m.game.headers
    && m'.clock == m.clock
    && (m'.drawState.blackOffer ==> m.drawState.blackOffer)
    && (m.live ==> m'.live)
  }

  predicate Survives(st: Sessions, st': Sessions, id: MatchId) {
    id in st'.matches ==> id in st.matches && Evolves(st.matches[id], st'.matches[id])
  }

  // ------------------------------------------------------------ ending a match

  /** `saveGame(match)`: hand the players and the PGN to the database. */
  function SaveMatch(m: Match, o: Oracle, reply: SaveReply, db: Tallies): (r: Stats)
    ensures r.ok <==> reply.matchRow && reply.whiteRow && reply.blackRow
                      && ResultOf(Pgn(o, m.game)).Some? && IsKnownToken(ResultOf(Pgn(o, m.game)).value)
    ensures !r.ok ==> r.tallies == db
    ensures r.tallies.Keys == db.Keys
  {
    SaveGame(m.whiteId, m.blackId, Pgn(o, m.game), reply, db)
  }

  /** `endGame(matchId)`: stop the clock, mark the match over, save it, and
      remove it from the registry whatever the save reported. */
  function EndGame(st: Sessions, id: MatchId, o: Oracle, reply: SaveReply): (r: Sessions)
    ensures id !in st.matches ==> r == st
    ensures id in st.matches ==> r.matches == st.matches - {id}
    ensures id in st.matches ==> r.db == SaveMatch(st.matches[id], o, reply, st.db).tallies
    ensures r.db.Keys == st.db.Keys
  {
    if id !in st.matches then st
    else
      var ended := st.matches[id].(live := false);
      Sessions(st.matches - {id}, SaveMatch(ended, o, reply, st.db).tallies)
  }

  /** The token recorded when `loser` loses (on time or by resigning). */
  function LossFor(loser: Color): (token: string)
    ensures IsKnownToken(token)
    ensures token == WhiteWins <==> loser == B
    ensures token == BlackWins <==> loser == W
  {
    assert BlackWins[0] != WhiteWins[0];
    match loser
    case W => BlackWins
    case B => WhiteWins
  }

  /** Write comments in order, then the result header. All comments go on
      the current position, so only the last one is kept. */
  function Record(m: Match, comments: seq<string>, token: string): (m': Match)
    ensures m'.whiteId == m.whiteId && m'.blackId == m.blackId
    ensures m'.game.pos == m.game.pos
    ensures |comments| > 0 ==> m'.game.comments == m.game.comments[m.game.pos := comments[|comments| - 1]]
    ensures |comments| == 0 ==> m'.game.comments == m.game.comments
    ensures Lookup(m'.game.headers, "Result") == Some(token)
    ensures m'.game.headers == Upsert(m.game.headers, "Result", token)
    decreases |comments|
  {
    if |comments| == 0 then m.(game := SetHeader(m.game, "Result", token))
    else Record(m.(game := SetComment(m.game, comments[0])), comments[1..], token)
  }

  /** `endGameOnFlag(matchId, color)`: `color` loses on time. */
  function EndGameOnFlag(st: Sessions, id: MatchId, o: Oracle, reply: SaveReply, color: Color): (r: Sessions)
    ensures id !in st.matches ==> r == st
    ensures id in st.matches ==> r.matches == st.matches - {id}
    ensures r.db.Keys == st.db.Keys
  {
    if id !in st.matches then st
    else
      var token := LossFor(color);
      var winner := if color == B then "White" else "Black";
      var m := Record(st.matches[id], [winner + "wins on time.", token], token);
      EndGame(st.(matches := st.matches[id := m]), id, o, reply)
  }

  /** `endGameOnDraw(matchId)`. */
  function EndGameOnDraw(st: Sessions, id: MatchId, o: Oracle, reply: SaveReply): (r: Sessions)
    ensures id !in st.matches ==> r == st
    ensures id in st.matches ==> r.matches == st.matches - {id}
    ensures r.db.Keys == st.db.Keys
  {
    if id !in st.matches then st
    else
      var m := Record(st.matches[id], [DrawToken], DrawToken);
      EndGame(st.(matches := st.matches[id := m]), id, o, reply)
  }

  // ------------------------------------------------------------ the clock

  /** Subtract `rate` from the side to move. */
  function Debit(c: Clock, turn: Color, rate: int): (c': Clock)
    ensures c'.Remaining(turn) == c.Remaining(turn) - rate
    ensures c'.Remaining(turn.Opponent()) == c.Remaining(turn.Opponent())
  {
    if turn == W then c.(white := c.white - rate) else c.(black := c.black - rate)
  }

  /** One firing of the decrement interval (`updateActiveClock`). The
      interval exists only between the start of a match and its end, so a
      tick for a match that is not registered or not live does nothing. */
  function UpdateActiveClock(st: Sessions, id: MatchId, o: Oracle, rate: int, reply: SaveReply): (r: Outcome)
    ensures id !in st.matches || !st.matches[id].live ==> r == Outcome(st, [])
    ensures Confined(st, r.st, id)
    ensures id in st.matches && st.matches[id].live ==>
      var m := st.matches[id];
      var turn := Turn(o, m.game);
      var left := m.clock.Remaining(turn) - rate;
      && (id in r.st.matches <==> left >= FlagBelow)
      && (left >= FlagBelow ==>
            && r.st.matches[id] == m.(clock := Debit(m.clock, turn, rate))
            && r.st.db == st.db
            && r.events == [])
      && (left < FlagBelow ==> r.events == [UpdateClock(id, turn, 0)])
    ensures r.st.db.Keys == st.db.Keys
  {
    if id !in st.matches || !st.matches[id].live then Outcome(st, [])
    else
      var m := st.matches[id];
      var turn := Turn(o, m.game);
      var m' := m.(clock := Debit(m.clock, turn, rate));
      var st' := st.(matches := st.matches[id := m']);
      if m'.clock.Remaining(turn) < FlagBelow then
        Outcome(EndGameOnFlag(st', id, o, reply, turn), [UpdateClock(id, turn, 0)])
      else
        Outcome(st', [])
  }

  /** One firing of the broadcast interval (`pollClocks`): the side to move
      and its remaining time; nothing changes. */
  function PollClocks(st: Sessions, id: MatchId, o: Oracle): (r: Outcome)
    ensures r.st == st
    ensures id in st.matches && st.matches[id].live ==>
      var turn := Turn(o, st.matches[id].game);
      r.events == [UpdateClock(id, turn, st.matches[id].clock.Remaining(turn))]
    ensures !(id in st.matches && st.matches[id].live) ==> r.events == []
  {
    if id !in st.matches || !st.matches[id].live then Outcome(st, [])
    else
      var m := st.matches[id];
      var turn := Turn(o, m.game);
      Outcome(st, [UpdateClock(id, turn, m.clock.Remaining(turn))])
  }

  /** `startMatchClock`: a missing or already live match is left alone;
      otherwise the match goes live and both clocks are broadcast. */
  function StartMatchClock(st: Sessions, id: MatchId): (r: Outcome)
    ensures id !in st.matches || st.matches[id].live ==> r == Outcome(st, [])
    ensures id in st.matches ==>
      && r.st.matches == st.matches[id := st.matches[id].(live := true)]
      && r.st.db == st.db
    ensures Confined(st, r.st, id) && Survives(st, r.st, id)
  {
    if id !in st.matches || st.matches[id].live then Outcome(st, [])
    else
      var m := st.matches[id];
      Outcome(st.(matches := st.matches[id := m.(live := true)]),
              [UpdateClock(id, B, m.clock.black), UpdateClock(id, W, m.clock.white)])
  }

  /** Starting a clock twice is starting it once. */
  lemma StartMatchClockIdempotent(st: Sessions, id: MatchId)
    ensures StartMatchClock(StartMatchClock(st, id).st, id) == Outcome(StartMatchClock(st, id).st, [])
  {
  }

  // ------------------------------------------------------------ joining

  /** `isSocketMatchParticipant`. */
  function IsParticipant(m: Match, user: User): (b: bool)
    ensures b <==> user.id in {m.whiteId, m.blackId}
  {
    user.id == m.whiteId || user.id == m.blackId
  }

  function JoinError(msg: string): Event {
    Emit(Caller, "joinMatchRoom", [Str(msg)])
  }

  /** `joinMatchRoom`: `inRoom` says whether this socket is already in the
      match room; `roomSize` is what `fetchSockets` counts after the join. */
  function JoinMatchRoom(st: Sessions, id: MatchId, user: User, inRoom: bool, roomSize: nat): (r: Outcome)
    ensures inRoom ==> r == Outcome(st, [])
    ensures !inRoom && id !in st.matches ==> r == Outcome(st, [JoinError("Match id not found")])
    ensures !inRoom && id in st.matches && !IsParticipant(st.matches[id], user) ==>
      r == Outcome(st, [JoinError("Invalid user for this match")])
    ensures r.st != st <==>
      !inRoom && id in st.matches && IsParticipant(st.matches[id], user) && roomSize > 1 && !st.matches[id].live
    ensures r.st != st ==> id in r.st.matches && r.st.matches[id].live
    ensures Confined(st, r.st, id) && Survives(st, r.st, id) && r.st.db == st.db
  {
    if inRoom then Outcome(st, [])
    else if id !in st.matches then Outcome(st, [JoinError("Match id not found")])
    else if !IsParticipant(st.matches[id], user) then Outcome(st, [JoinError("Invalid user for this match")])
    else if roomSize > 1 then StartMatchClock(st, id)
    else Outcome(st, [])
  }

  // ------------------------------------------------------------ moves

  /** `if (move.promotion == "") delete move.promotion`. */
  function Normalize(mv: Move): (r: Move)
    ensures r.from == mv.from && r.to == mv.to
    ensures r.promotion != Some("")
    ensures mv.promotion != Some("") ==> r == mv
    ensures mv.promotion == Some("") ==> r.promotion.None?
  {
    if mv.promotion == Some("") then mv.(promotion := None) else mv
  }

  /** The colour whose turn it is may not be moved by the other player:
      the guard `turn == 'w' && id == blackId || turn == 'b' && id == whiteId`. */
  function MovesForOpponent(m: Match, turn: Color, user: User): (b: bool)
    ensures b ==> IsParticipant(m, user)
    ensures IsParticipant(m, user) && m.whiteId != m.blackId ==> (b <==> ColorOf(m, user) != turn)
  {
    (turn == W && user.id == m.blackId) || (turn == B && user.id == m.whiteId)
  }

  /** The colour of a participant: white if the id is white's, else black. */
  function ColorOf(m: Match, user: User): (c: Color)
    ensures c == W <==> user.id == m.whiteId
    ensures IsParticipant(m, user) && c == B ==> user.id == m.blackId
  {
    if user.id == m.whiteId then W else B
  }

  /** Status and result header after a move the engine calls game over;
      `mover` is the side that made the move. */
  function GameOverResult(v: Verdicts, mover: Color): (r: (string, Option<string>))
    ensures r.1.Some? ==> IsKnownToken(r.1.value)
    ensures v.checkmate ==> r == ("checkmate", Some(if mover == W then WhiteWins else BlackWins))
    ensures !v.checkmate && (v.draw || v.stalemate || v.threefold) ==> r.1 == Some(DrawToken)
    ensures r.1.None? <==> !(v.checkmate || v.draw || v.stalemate || v.threefold)
    ensures !v.checkmate && v.draw ==> r.0 == "draw"
    ensures !v.checkmate && !v.draw && v.stalemate ==> r.0 == "stalemate"
    ensures !v.checkmate && !v.draw && !v.stalemate && v.threefold ==> r.0 == "threefold"
    ensures r.1.None? ==> r.0 == "none"
  {
    if v.checkmate then ("checkmate", Some(if mover == W then WhiteWins else BlackWins))
    else if v.draw then ("draw", Some(DrawToken))
    else if v.stalemate then ("stalemate", Some(DrawToken))
    else if v.threefold then ("threefold", Some(DrawToken))
    else ("none", None)
  }

  /** The `makeMove` handler. `move` is None when the client sent no move
      object: reading its `promotion` throws and the catch reports an
      invalid move before any other check. */
  function MakeMove(st: Sessions, id: MatchId, user: User, move: Option<Move>, o: Oracle, reply: SaveReply): (r: Outcome)
    // the checks, in order; each rejection changes nothing
    ensures move.None? ==> r == Outcome(st, [MoveError("Invalid move")])
    ensures move.Some? && id !in st.matches ==> r == Outcome(st, [MoveError("Match id not found")])
    ensures move.Some? && id in st.matches && !st.matches[id].live ==>
      r == Outcome(st, [MoveError("Match has ended")])
    ensures move.Some? && id in st.matches && st.matches[id].live && !IsParticipant(st.matches[id], user) ==>
      r == Outcome(st, [MoveError("Invalid user for this match")])
    ensures move.Some? && id in st.matches && st.matches[id].live && IsParticipant(st.matches[id], user)
            && MovesForOpponent(st.matches[id], Turn(o, st.matches[id].game), user) ==>
      r == Outcome(st, [MoveError("Not your turn")])
    ensures move.Some? && id in st.matches && o.play(st.matches[id].game.pos, Normalize(move.value)).None? ==>
      r.st == st && |r.events| == 1 && r.events[0].to == Caller
    ensures move.Some? && id in st.matches && st.matches[id].live && IsParticipant(st.matches[id], user)
            && !MovesForOpponent(st.matches[id], Turn(o, st.matches[id].game), user)
            && o.play(st.matches[id].game.pos, Normalize(move.value)).None? ==>
      r.events == [MoveError("Invalid move")]
    // a move the engine plays: the new position is stored, or the match ends
    ensures move.Some? && id in st.matches && st.matches[id].live && IsParticipant(st.matches[id], user)
            && !MovesForOpponent(st.matches[id], Turn(o, st.matches[id].game), user)
            && o.play(st.matches[id].game.pos, Normalize(move.value)).Some? ==>
      var m := st.matches[id];
      var mv := Normalize(move.value);
      var p := o.play(m.game.pos, mv).value;
      var v := o.verdicts(p);
      && (v.gameOver ==>
            && r.st.matches == st.matches - {id}
            && r.events == [ValidMove(id, mv, GameOverResult(v, Turn(o, m.game)).0)])
      && (!v.gameOver ==>
            && r.st.matches == st.matches[id := m.(game := m.game.(pos := p), drawState := DrawState(false, false))]
            && r.st.db == st.db
            && r.events == [ValidMove(id, mv, if v.inCheck then "check" else "none")])
    // an accepted move
    ensures r.st != st ==> |r.events| == 1 && r.events[0].name == "validMove" && r.events[0].to == MatchRoom(id)
    ensures id in r.st.matches && r.st != st ==> r.st.matches[id].drawState == DrawState(false, false)
    ensures Confined(st, r.st, id) && Survives(st, r.st, id)
    ensures r.st.db.Keys == st.db.Keys
  {
    if move.None? then Outcome(st, [MoveError("Invalid move")])
    else
      var mv := Normalize(move.value);
      if id !in st.matches then Outcome(st, [MoveError("Match id not found")])
      else
        var m := st.matches[id];
        if !m.live then Outcome(st, [MoveError("Match has ended")])
        else if !IsParticipant(m, user) then Outcome(st, [MoveError("Invalid user for this match")])
        else
          var turn := Turn(o, m.game);
          if MovesForOpponent(m, turn, user) then Outcome(st, [MoveError("Not your turn")])
          else match o.play(m.game.pos, mv)
            case None => Outcome(st, [MoveError("Invalid move")])
            case Some(p) =>
              var moved := m.(game := m.game.(pos := p), drawState := DrawState(false, false));
              var v := o.verdicts(p);
              if v.gameOver then
                var (status, token) := GameOverResult(v, turn);
                var final := if token.Some? then moved.(game := SetHeader(moved.game, "Result", token.value)) else moved;
                Outcome(EndGame(st.(matches := st.matches[id := final]), id, o, reply), [ValidMove(id, mv, status)])
              else
                Outcome(st.(matches := st.matches[id := moved]),
                        [ValidMove(id, mv, if v.inCheck then "check" else "none")])
  }

  /** `Not your turn` is reported exactly when a player tries to move the
      colour that is not on move (for a match between two different users). */
  lemma NotYourTurnExactly(st: Sessions, id: MatchId, user: User, mv: Move, o: Oracle, reply: SaveReply)
    requires id in st.matches && st.matches[id].live && IsParticipant(st.matches[id], user)
    requires st.matches[id].whiteId != st.matches[id].blackId
    ensures var m := st.matches[id];
            var own := if user.id == m.whiteId then W else B;
            MakeMove(st, id, user, Some(mv), o, reply).events == [MoveError("Not your turn")]
            <==> own != Turn(o, m.game)
  {
  }

  // ------------------------------------------------------------ resign and draws

  /** The `resign` handler: no liveness or turn check; the opponent of the
      resigning colour wins. */
  function Resign(st: Sessions, id: MatchId, user: User, o: Oracle, reply: SaveReply): (r: Outcome)
    ensures id !in st.matches ==> r == Outcome(st, [Emit(Caller, "resign", [Str("Match id not found")])])
    ensures id in st.matches && !IsParticipant(st.matches[id], user) ==>
      r == Outcome(st, [MoveError("Invalid user for this match")])
    ensures id in st.matches && IsParticipant(st.matches[id], user) ==>
      && r.st.matches == st.matches - {id}
      && r.events == [Emit(MatchRoom(id), "resign", [Str(ColorOf(st.matches[id], user).Tag())])]
    ensures Confined(st, r.st, id) && Survives(st, r.st, id)
    ensures r.st.db.Keys == st.db.Keys
  {
    if id !in st.matches then Outcome(st, [Emit(Caller, "resign", [Str("Match id not found")])])
    else
      var m := st.matches[id];
      if !IsParticipant(m, user) then Outcome(st, [MoveError("Invalid user for this match")])
      else
        var color := ColorOf(m, user);
        var token := LossFor(color);
        var who := if color == W then "White" else "Black";
        var m' := Record(m, [who + "resigns.", token], token);
        Outcome(EndGame(st.(matches := st.matches[id := m']), id, o, reply),
                [Emit(MatchRoom(id), "resign", [Str(color.Tag())])])
  }

  /** The `offerDraw` handler as written: both branches of the colour test
      set `whiteOffer`, so black's flag is never raised by an offer. */
  function OfferDraw(st: Sessions, id: MatchId, user: User, o: Oracle, reply: SaveReply): (r: Outcome)
    ensures id !in st.matches ==> r == Outcome(st, [Emit(Caller, "offerDraw", [Str("Match id not found")])])
    ensures id in st.matches && !IsParticipant(st.matches[id], user) ==>
      r == Outcome(st, [MoveError("Invalid user for this match")])
    ensures id in st.matches && IsParticipant(st.matches[id], user) && !st.matches[id].drawState.blackOffer ==>
      var m := st.matches[id];
      var opponent := if ColorOf(m, user) == W then m.blackId else m.whiteId;
      && r.st.matches == st.matches[id := m.(drawState := m.drawState.(whiteOffer := true))]
      && r.st.db == st.db
      && r.events == [Emit(UserRoom(opponent), "offerDraw", [])]
    ensures Confined(st, r.st, id) && Survives(st, r.st, id)
    ensures r.st.db.Keys == st.db.Keys
  {
    if id !in st.matches then Outcome(st, [Emit(Caller, "offerDraw", [Str("Match id not found")])])
    else
      var m := st.matches[id];
      if !IsParticipant(m, user) then Outcome(st, [MoveError("Invalid user for this match")])
      else
        var color := ColorOf(m, user);
        var ds := if color == W then m.drawState.(whiteOffer := true) else m.drawState.(whiteOffer := true);
        var st' := st.(matches := st.matches[id := m.(drawState := ds)]);
        if ds.whiteOffer && ds.blackOffer then
          Outcome(EndGameOnDraw(st', id, o, reply), [Emit(MatchRoom(id), "acceptDraw", [])])
        else
          var opponent := if color == W then m.blackId else m.whiteId;
          Outcome(st', [Emit(UserRoom(opponent), "offerDraw", [])])
  }

  /** The `declineDraw` handler: both flags cleared, decline broadcast. */
  function DeclineDraw(st: Sessions, id: MatchId, user: User): (r: Outcome)
    ensures id !in st.matches ==> r == Outcome(st, [Emit(Caller, "declineDraw", [Str("Match id not found")])])
    ensures id in st.matches && !IsParticipant(st.matches[id], user) ==>
      r == Outcome(st, [MoveError("Invalid user for this match")])
    ensures id in st.matches && IsParticipant(st.matches[id], user) ==>
      && r.st.matches.Keys == st.matches.Keys
      && r.st.matches[id].drawState == DrawState(false, false)
      && r.events == [Emit(MatchRoom(id), "declineDraw", [])]
    ensures id in st.matches && IsParticipant(st.matches[id], user) ==>
      r.st.matches == st.matches[id := st.matches[id].(drawState := DrawState(false, false))]
    ensures Confined(st, r.st, id) && Survives(st, r.st, id) && r.st.db == st.db
  {
    if id !in st.matches then Outcome(st, [Emit(Caller, "declineDraw", [Str("Match id not found")])])
    else
      var m := st.matches[id];
      if !IsParticipant(m, user) then Outcome(st, [MoveError("Invalid user for this match")])
      else
        Outcome(st.(matches := st.matches[id := m.(drawState := DrawState(false, false))]),
                [Emit(MatchRoom(id), "declineDraw", [])])
  }
}

=== FILE: results.dfy ===
/**
 From the end of a match to the players' profiles: the result header a
 handler writes is the token the tally update finds in the saved PGN, so
 every way of ending a match credits the right player. This holds whenever
 no header before the result line contains `[` (the usernames are the only
 headers not fixed by the handlers).
 */
module Results {
  import opened Basics
  import opened Engine
  import opened DbAccess
  import opened MatchHandlers
  import opened InviteHandlers

  /** Text in which no result tag starts contains no result tag. */
  lemma NoTagStartNoResult(s: string)
    requires NoTagStart(s)
    ensures ResultOf(s).None?
  {
    forall j | 0 <= j <= |s|
      ensures !MatchesAt(s, j)
    {
      if j < |s| && s[j] == '[' {
        assert s[j..][1] == s[j + 1];
      } else if j < |s| {
        assert s[j..][0] == s[j];
      }
    }
  }

  /** A PGN in which `[Result "` occurs nowhere yields no result, so the
      stats update fails and no tally changes: a `[Round "?"]` header or any
      other `[R` is not enough. */
  lemma NoResultOpenNoResult(s: string)
    requires forall k: nat :: !OpensAt(s, k)
    ensures ResultOf(s).None?
  {
    forall j | 0 <= j <= |s|
      ensures !MatchesAt(s, j)
    {
      if MatchesAt(s, j) {
        assert s[j..][..|ResultOpen|] == s[j..j + |ResultOpen|];
        assert OpensAt(s, j);
        assert false;
      }
    }
  }

  /** No match starts inside a prefix in which no result tag starts. */
  lemma PrefixHasNoTag(front: string, rest: string)
    requires NoTagStart(front)
    ensures LeftmostFrom(front + rest, 0, |front|)
    ensures (front + rest)[|front|..] == rest
  {
    var s := front + rest;
    forall k | 0 <= k < |front|
      ensures !MatchesAt(s, k)
    {
      assert s[k] == front[k];
      if front[k] == '[' {
        assert s[k..][1] == front[k + 1];
      } else {
        assert s[k..][0] == front[k];
      }
    }
  }

  lemma ResultLineShape(token: string, tail: string)
    ensures HeaderLine(Header("Result", token)) + tail == ResultOpen + token + "\"]" + ("\n" + tail)
  {
  }

  /** Inert headers hold no result header, so writing one appends it. */
  lemma InertHeadersAppendResult(hs: seq<Header>, token: string)
    requires InertHeaders(hs)
    ensures Upsert(hs, "Result", token) == hs + [Header("Result", token)]
  {
    forall i | 0 <= i < |hs| ensures hs[i].key != "Result" {
      assert hs[i].key[0] != 'R';
    }
  }

  lemma PgnSplits(o: Oracle, g: Game, hs: seq<Header>, line: Header)
    requires g.headers == hs + [line]
    ensures Pgn(o, g) == RenderHeaders(hs) + (HeaderLine(line) + ("\n" + o.moveText(g.pos, g.comments)))
  {
    RenderHeadersAppend(hs, line);
  }

  /** Writing result `token` into a game whose headers are inert makes it the
      token the regex finds in the game's PGN, whatever the move text. */
  lemma ResultHeaderFound(o: Oracle, g: Game, hs: seq<Header>, token: string)
    requires InertHeaders(hs) && IsResultToken(token)
    requires g.headers == Upsert(hs, "Result", token)
    ensures ResultOf(Pgn(o, g)) == Some(token)
  {
    InertHeadersAppendResult(hs, token);
    var line := Header("Result", token);
    var front := RenderHeaders(hs);
    InertHeadersRender(hs);
    var mt := o.moveText(g.pos, g.comments);
    var rest := HeaderLine(line) + ("\n" + mt);
    PgnSplits(o, g, hs, line);
    ResultLineShape(token, "\n" + mt);
    TagAtResultLine(token, "\n" + ("\n" + mt));
    PrefixHasNoTag(front, rest);
    ResultOfLeftmost(front + rest, |front|, token);
  }

  /** Why usernames must hold no `[`: a white username that spells out a
      result line puts that result first in the PGN, and the regex reports
      it whatever result header the handlers write after it. */
  lemma UsernameFakesResult(o: Oracle, g: Game, t: string)
    requires IsResultToken(t)
    requires |g.headers| > 0 && g.headers[0] == Header("White", ResultOpen + t + "\"]")
    ensures ResultOf(Pgn(o, g)) == Some(t)
  {
    var hs := g.headers;
    var front := "[White \"";
    var after := RenderHeaders(hs[1..]) + "\n" + o.moveText(g.pos, g.comments);
    var tail := "\"]\n" + after;
    var rest := ResultOpen + t + "\"]" + tail;
    assert Pgn(o, g) == HeaderLine(hs[0]) + after;
    WhiteLineShape(ResultOpen + t + "\"]", after);
    assert Pgn(o, g) == front + rest;
    assert NoTagStart(front) by {
      assert front[0] == '[' && front[1] == 'W';
      assert forall i :: 0 < i < |front| ==> front[i] != '[';
    }
    TagAtResultLine(t, tail);
    PrefixHasNoTag(front, rest);
    ResultOfLeftmost(front + rest, |front|, t);
  }

  lemma WhiteLineShape(v: string, after: string)
    ensures HeaderLine(Header("White", v)) + after == "[White \"" + (v + ("\"]\n" + after))
  {
  }

  /** Ending a match whose PGN carries a known result token, with every
      insert succeeding, credits each profile with what the result is worth. */
  lemma EndGameCredits(st: Sessions, id: MatchId, o: Oracle, reply: SaveReply, token: string)
    requires id in st.matches
    requires ResultOf(Pgn(o, st.matches[id].game)) == Some(token) && IsKnownToken(token)
    requires reply.matchRow && reply.whiteRow && reply.blackRow
    ensures var r := EndGame(st, id, o, reply);
            var m := st.matches[id];
            && id !in r.matches
            && r.db.Keys == st.db.Keys
            && forall u :: u in st.db ==> r.db[u] == Plus(st.db[u], Credit(token, m.whiteId, m.blackId, u))
  {
    var m := st.matches[id];
    forall u | u in st.db
      ensures EndGame(st, id, o, reply).db[u] == Plus(st.db[u], Credit(token, m.whiteId, m.blackId, u))
    {
      StatsMatchCredit(m.whiteId, m.blackId, Pgn(o, m.game), st.db, u);
    }
  }

  /** Record then end: the common tail of every writer of a result token. */
  lemma RecordedEndCredits(st: Sessions, id: MatchId, o: Oracle, reply: SaveReply, m': Match, token: string)
    requires id in st.matches && InertHeaders(st.matches[id].game.headers)
    requires m'.game.headers == Upsert(st.matches[id].game.headers, "Result", token)
    requires m'.whiteId == st.matches[id].whiteId && m'.blackId == st.matches[id].blackId
    requires IsKnownToken(token)
    requires reply.matchRow && reply.whiteRow && reply.blackRow
    ensures var r := EndGame(st.(matches := st.matches[id := m']), id, o, reply);
            var m := st.matches[id];
            && r.matches == st.matches - {id}
            && r.db.Keys == st.db.Keys
            && forall u :: u in st.db ==> r.db[u] == Plus(st.db[u], Credit(token, m.whiteId, m.blackId, u))
  {
    KnownTokensMatch();
    ResultHeaderFound(o, m'.game, st.matches[id].game.headers, token);
    var st' := st.(matches := st.matches[id := m']);
    assert st'.matches[id] == m';
    EndGameCredits(st', id, o, reply, token);
    OverwriteThenRemove(st.matches, id, m');
  }

  lemma OverwriteThenRemove(mp: Registry, id: MatchId, v: Match)
    ensures mp[id := v] - {id} == mp - {id}
  {
  }

  /** Resigning hands the opponent the win: white resigning records "0-1",
      black resigning "1-0", and the profiles are credited accordingly. */
  lemma ResignCreditsOpponent(st: Sessions, id: MatchId, user: User, o: Oracle, reply: SaveReply)
    requires id in st.matches && IsParticipant(st.matches[id], user)
    requires InertHeaders(st.matches[id].game.headers)
    requires reply.matchRow && reply.whiteRow && reply.blackRow
    ensures var m := st.matches[id];
            var r := Resign(st, id, user, o, reply);
            var token := if ColorOf(m, user) == W then BlackWins else WhiteWins;
            && id !in r.st.matches
            && forall u :: u in st.db ==> r.st.db[u] == Plus(st.db[u], Credit(token, m.whiteId, m.blackId, u))
  {
    var m := st.matches[id];
    var color := ColorOf(m, user);
    var token := LossFor(color);
    var who := if color == W then "White" else "Black";
    var m' := Record(m, [who + "resigns.", token], token);
    RecordedEndCredits(st, id, o, reply, m', token);
  }

  /** An agreed draw writes `1/2-1/2` and credits each player with a draw. */
  lemma DrawEndCreditsBoth(st: Sessions, id: MatchId, o: Oracle, reply: SaveReply)
    requires id in st.matches && InertHeaders(st.matches[id].game.headers)
    requires reply.matchRow && reply.whiteRow && reply.blackRow
    ensures var m := st.matches[id];
            var r := EndGameOnDraw(st, id, o, reply);
            && id !in r.matches
            && forall u :: u in st.db ==> r.db[u] == Plus(st.db[u], Credit(DrawToken, m.whiteId, m.blackId, u))
  {
    var m' := Record(st.matches[id], [DrawToken], DrawToken);
    RecordedEndCredits(st, id, o, reply, m', DrawToken);
  }

  /** A flag fall hands the win to the side not on move: "0-1" when white's
      time runs out, "1-0" when black's does. */
  lemma FlagFallCreditsOpponent(st: Sessions, id: MatchId, o: Oracle, rate: int, reply: SaveReply)
    requires id in st.matches && st.matches[id].live
    requires var m := st.matches[id]; m.clock.Remaining(Turn(o, m.game)) - rate < FlagBelow
    requires InertHeaders(st.matches[id].game.headers)
    requires reply.matchRow && reply.whiteRow && reply.blackRow
    ensures var m := st.matches[id];
            var r := UpdateActiveClock(st, id, o, rate, reply);
            var token := if Turn(o, m.game) == W then BlackWins else WhiteWins;
            && id !in r.st.matches
            && r.events == [UpdateClock(id, Turn(o, m.game), 0)]
            && forall u :: u in st.db ==> r.st.db[u] == Plus(st.db[u], Credit(token, m.whiteId, m.blackId, u))
  {
    var m := st.matches[id];
    var turn := Turn(o, m.game);
    var ticked := m.(clock := Debit(m.clock, turn, rate));
    var st1 := st.(matches := st.matches[id := ticked]);
    var token := LossFor(turn);
    var winner := if turn == B then "White" else "Black";
    var m' := Record(ticked, [winner + "wins on time.", token], token);
    RecordedEndCredits(st1, id, o, reply, m', token);
    assert st1.db == st.db;
  }

  /** A mating move wins for the side that made it: "1-0" for white, "0-1"
      for black; the move is broadcast with status "checkmate". */
  lemma CheckmateCreditsMover(st: Sessions, id: MatchId, user: User, mv: Move, o: Oracle, reply: SaveReply)
    requires id in st.matches && st.matches[id].live && IsParticipant(st.matches[id], user)
    requires var m := st.matches[id]; !MovesForOpponent(m, Turn(o, m.game), user)
    requires var m := st.matches[id]; o.play(m.game.pos, Normalize(mv)).Some?
    requires var m := st.matches[id]; var v := o.verdicts(o.play(m.game.pos, Normalize(mv)).value);
             v.gameOver && v.checkmate
    requires InertHeaders(st.matches[id].game.headers)
    requires reply.matchRow && reply.whiteRow && reply.blackRow
    ensures var m := st.matches[id];
            var r := MakeMove(st, id, user, Some(mv), o, reply);
            var token := if Turn(o, m.game) == W then WhiteWins else BlackWins;
            && id !in r.st.matches
            && r.events == [ValidMove(id, Normalize(mv), "checkmate")]
            && forall u :: u in st.db ==> r.st.db[u] == Plus(st.db[u], Credit(token, m.whiteId, m.blackId, u))
  {
    var m := st.matches[id];
    var turn := Turn(o, m.game);
    var p := o.play(m.game.pos, Normalize(mv)).value;
    var moved := m.(game := m.game.(pos := p), drawState := DrawState(false, false));
    var token := if turn == W then WhiteWins else BlackWins;
    var final := moved.(game := SetHeader(moved.game, "Result", token));
    RecordedEndCredits(st, id, o, reply, final, token);
  }

  /** A move the engine calls a draw, stalemate or threefold repetition
      credits both players with a draw. */
  lemma EngineDrawCreditsBoth(st: Sessions, id: MatchId, user: User, mv: Move, o: Oracle, reply: SaveReply)
    requires id in st.matches && st.matches[id].live && IsParticipant(st.matches[id], user)
    requires var m := st.matches[id]; !MovesForOpponent(m, Turn(o, m.game), user)
    requires var m := st.matches[id]; o.play(m.game.pos, Normalize(mv)).Some?
    requires var m := st.matches[id]; var v := o.verdicts(o.play(m.game.pos, Normalize(mv)).value);
             v.gameOver && !v.checkmate && (v.draw || v.stalemate || v.threefold)
    requires InertHeaders(st.matches[id].game.headers)
    requires reply.matchRow && reply.whiteRow && reply.blackRow
    ensures var m := st.matches[id];
            var r := MakeMove(st, id, user, Some(mv), o, reply);
            && id !in r.st.matches
            && forall u :: u in st.db ==> r.st.db[u] == Plus(st.db[u], Credit(DrawToken, m.whiteId, m.blackId, u))
  {
    var m := st.matches[id];
    var p := o.play(m.game.pos, Normalize(mv)).value;
    var moved := m.(game := m.game.(pos := p), drawState := DrawState(false, false));
    var final := moved.(game := SetHeader(moved.game, "Result", DrawToken));
    RecordedEndCredits(st, id, o, reply, final, DrawToken);
  }

  /** A move the engine calls game over without any of the four verdicts the
      handler knows ends the match with no result header: if the move text
      starts no result tag either, the tally update fails and no profile
      changes. */
  lemma UnexplainedGameOverNotTallied(st: Sessions, id: MatchId, user: User, mv: Move, o: Oracle, reply: SaveReply)
    requires id in st.matches && st.matches[id].live && IsParticipant(st.matches[id], user)
    requires var m := st.matches[id]; !MovesForOpponent(m, Turn(o, m.game), user)
    requires var m := st.matches[id]; o.play(m.game.pos, Normalize(mv)).Some?
    requires var m := st.matches[id]; var p := o.play(m.game.pos, Normalize(mv)).value;
             var v := o.verdicts(p);
             && v.gameOver && !(v.checkmate || v.draw || v.stalemate || v.threefold)
             && NoTagStart(o.moveText(p, m.game.comments))
    requires InertHeaders(st.matches[id].game.headers)
    ensures var r := MakeMove(st, id, user, Some(mv), o, reply);
            && id !in r.st.matches
            && r.st.db == st.db
  {
    var m := st.matches[id];
    var p := o.play(m.game.pos, Normalize(mv)).value;
    var moved := m.(game := m.game.(pos := p), drawState := DrawState(false, false));
    InertHeadersRender(m.game.headers);
    var mt := o.moveText(p, m.game.comments);
    assert NoTagStart("\n");
    NoTagStartConcat(RenderHeaders(m.game.headers), "\n");
    NoTagStartConcat(RenderHeaders(m.game.headers) + "\n", mt);
    assert Pgn(o, moved.game) == RenderHeaders(m.game.headers) + "\n" + mt;
    NoTagStartNoResult(Pgn(o, moved.game));
  }
}
